=== FILE: README.md ===
# Palm-Arca core in Dafny

A model of the sequential logic at the heart of Palm-Arca. Palm-Arca records
datasets stored on IPFS/Filecoin through Lighthouse, the AI models trained on
them, and the licensing relationships between the two. A wallet signs in by
signing a one-time nonce.

The model covers four parts:

- **The wallet authenticator** (`Auth`, from `server/auth.ts`):
  - a nonce store keyed by the lower-cased address, plus the session;
  - nonce issue, the expiry timer as an explicit `Expire` event, verify, status and logout;
  - signature recovery as an oracle that answers an address, or `None` when recovery throws.
- **The record store and its HTTP guards**:
  - `Store`, from `server/storage.ts`: documents in creation order, max+1 id allocation, create, status update, the foreign-key filters and the demo user;
  - `Routes`, from `server/routes.ts`: the relationship guard, the status PATCH handlers, `/ipfs/check` and the `/ipfs/upload` fold;
  - `Schema`, from `shared/schema.ts`: the entities, the insert payloads and the request validators over a small JSON datatype.
- **The client helpers** (`Web3Storage`, from `client/src/lib/web3storage.ts`): the CID existence check, the lineage verifier, the retrieval filter and the upload's file list. The server is an oracle. Composition lemmas plug in the model's own `/ipfs/check` and `/ipfs/upload` handlers.
- **The client list logic**:
  - `RelationshipTable`: pagination;
  - `UploadForm`: the tag list, the file list, submit and the resets.

`Common` holds the option/result types and an order-preserving `Filter`.
`Text` holds the JavaScript string primitives the code relies on:
- `toLowerCase` on ASCII letters;
- `includes`;
- `trim` over the ECMAScript white-space set;
- integer `toString`;
- `parseInt`.

Every handler is a pure function from the state before the request to the
state after it, paired with the response. Randomness, the ten-minute timer,
signature recovery, the Lighthouse SDK, the file system and the byte-size
formatter are parameters.

Two error paths are worth knowing before reading the contracts:

- `checkCidExists` and `verifyLineage` catch every failure of a lineage lookup and answer `false`; `Web3Storage.VerifyLineage` does the same.
- `/verify` answers 400 for a request missing a field, for an address with no pending nonce and for a message that does not contain the nonce. It answers 401 when the signature recovers no address and when the recovered address differs from the claimed one.

Some behaviours follow from the code and are stated as lemmas:

- The client adds `metadata.json` to the files it uploads and also sends the metadata field. The server then adds a second `metadata.json` and counts both (`Web3Storage.MetadataUploadedTwice`).
- The form's dataset body asks for status "processing". The store records "verified" (`UploadForm.SubmittedDatasetIsVerified`).
- An expiry timer is never cancelled. So the timer of an earlier nonce request deletes a nonce issued later (`Auth.EarlierTimerDropsLaterNonce`).
- The table's page number is not reset when the list shrinks. A stale page shows no rows, and its footer range runs backwards (`RelationshipTable.StalePageShowsNothing`).

## Model

| member | source | states |
|---|---|---|
| Text.Lower | server/auth.ts:41 | lower-casing keeps the length, turns each upper-case letter into its lower-case partner, leaves no upper-case letter and changes nothing else |
| Text.LowerChar | server/auth.ts:41 | an upper-case letter becomes the lower-case letter at the same place in the alphabet; every other character is kept |
| Text.LowerIdempotent | server/auth.ts:23 | a lower-cased address lower-cases to itself, so the stored key is stable |
| Text.Contains | server/auth.ts:50 | `includes` holds exactly when some window of the message spells the nonce |
| Text.ContainsSuffix | client/src/hooks/use-wallet-auth.ts:60 | a message that ends with the nonce contains it |
| Text.Trim | client/src/components/UploadForm.tsx:141 | the result is a window of the input with only white space outside it and none at its ends |
| Text.TrimIdempotent | client/src/components/UploadForm.tsx:141-142 | a trimmed tag trims to itself |
| Text.TrimAllSpace | client/src/components/UploadForm.tsx:141 | an all-white-space tag input trims to the empty string, which is falsy |
| Text.ParseIntToString | server/storage.ts:183-189 | `parseInt` of the key written for an id reads back that id, negative ids included |
| Text.IntToStringInjective | server/storage.ts:183 | different ids give different document keys |
| Store.Lookup | server/storage.ts:144-145 | a key lookup finds a document exactly when one has that key, and answers that document's data |
| Store.KeyNumber | server/storage.ts:172 | `parseInt(key) \|\| 0` is positive for a key that starts with 1-9 and negative only for a key that starts with '-' |
| Store.NextId | server/storage.ts:171-173 | a new id is 1 for an empty collection, otherwise one more than the largest key number, and greater than every key number |
| Store.NextIdKeyFree | server/storage.ts:183-189 | no document is already named after the new id |
| Store.ReportedId | server/storage.ts:55-59 | a stored `id` field overrides the id parsed from the key |
| Store.ReportedIdAgreesOnNumericKey | server/storage.ts:55-59 | for a document named by its id, the key and the field report the same id |
| Store.GetUser | server/storage.ts:68-77 | a user is found by id exactly when a document is named by that id, and the user answered is that document's data |
| Store.GetUserByUsername | server/storage.ts:79-89 | a user is found exactly when one has that name; the one answered is a stored user, the first in creation order with that name |
| Store.CreateUser | server/storage.ts:91-113 | a new user is stored under a generated key with id one above the largest key number, and a lookup by its name then finds a user |
| Store.CreatedUserNotFoundById | server/storage.ts:68-113 | a user created under a generated name other than its id's numeral is not found by its id |
| Store.InitializeDatabase | server/storage.ts:351-371 | afterwards a user "demo" exists; it is added with id 1 only when none existed |
| Store.GetDatasets | server/storage.ts:115-137 | every stored dataset in creation order |
| Store.FirstWithId | server/storage.ts:150-157 | the query on the `id` field answers nothing exactly when no dataset holds the id, otherwise the first dataset in creation order that does |
| Store.GetDataset | server/storage.ts:139-166 | found exactly when a key or an `id` field matches; a document named by the id wins, otherwise the first document whose field holds the id |
| Store.GetDatasetFindsId | server/storage.ts:139-161 | when datasets are named by their ids, the lookup finds exactly the dataset with that id |
| Store.CreateDataset | server/storage.ts:168-203 | stored under the new id, one above the largest key number, with the caller's fields and status "verified" whatever was sent; found again by id; keeps keys unique |
| Store.UpdateDatasetStatus | server/storage.ts:205-221 | not found exactly when no document has the key; otherwise only that document's status changes |
| Store.GetModels | server/storage.ts:223-231 | every stored model in creation order |
| Store.GetModel | server/storage.ts:233-242 | a model is found exactly when a document is named by its id |
| Store.CreateModelAsWritten | server/storage.ts:244-270 | the model is appended under the generated key with id one above the largest key number |
| Store.AsWrittenModelNotFound | server/storage.ts:244-262 | a model created as written is not found by its own id |
| Store.AsWrittenModelIdsCollide | server/storage.ts:246-258 | two models created under letter-initial keys both get id 1 and neither is found by it |
| Store.CreateModel | server/storage.ts:244-270 | the corrected create gives the next id, stores the model under it, finds it again, and gives it an id no stored model has |
| Store.GetRelationships | server/storage.ts:272-280 | every stored relationship in creation order |
| Store.GetRelationshipsByDataset | server/storage.ts:282-291 | exactly the relationships with that dataset id, with their multiplicities |
| Store.GetRelationshipsByModel | server/storage.ts:293-302 | exactly the relationships with that model id, with their multiplicities |
| Store.CreateRelationshipAsWritten | server/storage.ts:304-330 | the relationship is appended under the generated key with the next id and status "verified" whatever was sent |
| Store.UpdateRelationshipStatus | server/storage.ts:332-348 | not found exactly when no document has the key; otherwise only that document's status changes |
| Store.AsWrittenRelationshipNotUpdatable | server/storage.ts:319-337 | a relationship created as written cannot have its status updated by its own id |
| Store.CreateRelationship | server/storage.ts:304-330 | the corrected create stores the relationship under the next id with status "verified" and keeps keys unique |
| Store.CreatedRelationshipUpdatable | server/storage.ts:332-342 | after the corrected create, a status update by the new id finds the relationship and sets its status |
| Schema.ValidateInsertDataset | shared/schema.ts:20-40 | accepted exactly when the six text columns are strings and the other columns are absent, null or well typed; every declared field of the result is the body's value; a refusal names only dataset keys |
| Schema.DatasetRoundTrip | shared/schema.ts:20-40 | every dataset insert, written as a JSON body, validates back to itself |
| Schema.DatasetIgnoresUndeclaredKeys | shared/schema.ts:37-40 | an undeclared key such as `id` or `uploadedAt` changes nothing |
| Schema.ValidateInsertModel | shared/schema.ts:46-59 | accepted exactly when name and cid are strings and the nullable columns are absent, null or strings/ints; every declared field of the result is the body's value |
| Schema.ModelIgnoresUndeclaredKeys | shared/schema.ts:56-59 | an undeclared key such as `id` or `createdAt` changes nothing |
| Schema.ModelRoundTrip | shared/schema.ts:46-59 | every model insert, written as a JSON body, validates back to itself |
| Schema.ValidateInsertRelationship | shared/schema.ts:65-78 | accepted exactly when datasetId and modelId are numbers and licensingInfo a string, with `status` and `processingCid` optional |
| Schema.RelationshipIgnoresUndeclaredKeys | shared/schema.ts:75-78 | an undeclared key such as `id` or `usageDate` changes nothing |
| Schema.ValidateMetadata | shared/schema.ts:84-92 | accepted exactly when the five required fields are non-empty strings, with description an optional string and tags an optional string list; every field of the result is the body's value |
| Schema.MetadataIgnoresUndeclaredKeys | shared/schema.ts:84-92 | a key the metadata schema does not declare changes nothing |
| Schema.MetadataRoundTrip | shared/schema.ts:84-92 | serialised metadata passes exactly when its required fields are non-empty, and then reads back unchanged |
| Schema.StringsStrItems | shared/schema.ts:91 | a tag list written as JSON reads back as the same list |
| Routes.GetDatasetRoute | server/routes.ts:71-81 | 404 exactly when the store finds no dataset, else 200 with it |
| Routes.PostDataset | server/routes.ts:83-95 | 400 with no change exactly when the schema refuses; else 201, status "verified", every other field as validated, the next id, one document appended |
| Routes.PatchDatasetStatus | server/routes.ts:97-113 | 400 for a missing, empty or non-string status before the store is consulted; 404 for an unknown id; a good status on a stored key succeeds, and the new state is exactly the store's status update |
| Routes.GetModelRoute | server/routes.ts:125-135 | 404 exactly when no document is named by the id |
| Routes.PostModel | server/routes.ts:137-149 | 400 with no change exactly when the schema refuses; else 201 with the validated fields and the next id, appended under the generated name |
| Routes.PostModelThenGet404 | server/routes.ts:125-149 | a model accepted by the POST is answered 404 by GET with its own id, unless the generated name is that id's numeral |
| Routes.PostModelFixed | server/routes.ts:137-149 | with the corrected store, an accepted model is stored under its id, with the validated fields, and found again by it |
| Routes.PostRelationship | server/routes.ts:179-202 | 400 on a refused body; "Dataset not found" is checked before "Model not found"; created exactly when both exist, with the validated fields, the next id and status "verified", appended under the generated name; a refusal changes nothing |
| Routes.PostRelationshipThenPatch404 | server/routes.ts:179-220 | a relationship accepted by the POST is answered 404 by a status PATCH with its own id, unless the generated name is that id's numeral |
| Routes.PostRelationshipFixed | server/routes.ts:179-202 | with the corrected store, the same checks in the same order, and a created relationship is stored under its id |
| Routes.PatchRelationshipStatus | server/routes.ts:204-220 | 400 for a bad status, 404 for an unknown id; a good status on a stored key succeeds, the new state is exactly the store's status update, and no relationship's dataset or model changes |
| Routes.PostRelationshipKeepsEdges | server/routes.ts:186-197 | every stored relationship names a dataset and a model the store can find, and creating one keeps it so |
| Routes.PostRelationshipFixedKeepsEdges | server/routes.ts:186-197 | the corrected create also orphans no relationship |
| Routes.PostDatasetKeepsEdges | server/routes.ts:83-95 | creating a dataset orphans no relationship |
| Routes.PostModelKeepsEdges | server/routes.ts:137-149 | creating a model orphans no relationship |
| Routes.PostModelFixedKeepsEdges | server/routes.ts:137-149 | the corrected model create orphans no relationship |
| Routes.PatchDatasetStatusKeepsEdges | server/routes.ts:97-113 | a dataset status update orphans no relationship |
| Routes.PatchRelationshipStatusKeepsEdges | server/routes.ts:204-220 | a relationship status update orphans no relationship |
| Routes.ValidateMetadataRoute | server/routes.ts:223-236 | 200 exactly when the metadata is valid, else 400 |
| Routes.IpfsCheck | server/routes.ts:479-512 | 500 without an API key before any lookup; without `getUploads` the answer is whether a stored dataset has the CID; a failing uploads list is 500 "Failed to check if CID exists in IPFS/Filecoin"; otherwise whether the uploads list it |
| Routes.FirstCidIsFirstHash | server/routes.ts:338-371 | the CID is empty exactly when no file yields one, otherwise it is the hash of the first file that does |
| Routes.UploadLoop | server/routes.ts:338-371 | the loop computes the first-hash CID and the total of all sizes |
| Routes.UploadedDataset | server/routes.ts:394-407 | each text field is the metadata's value when that is a non-empty string, else its fallback (the body's name, then "Unnamed Dataset"; "General"; "Unknown"; "Unknown"; "public"; ""); tags are the metadata's list or []; the row has the CID, the size, the file count, status "verified" and user 1 |
| Routes.AllFiles | server/routes.ts:294-325 | the request's files in order, then `metadata.json` exactly when metadata was parsed |
| Routes.AllFilesSize | server/routes.ts:343-345 | the reported size counts every request file, skipped ones included, plus `metadata.json` |
| Routes.IpfsUpload | server/routes.ts:279-432 | 400 with no files or unparsable metadata; 500 without a CID; success exactly when a CID was obtained, with that CID and the total size; only datasets can change |
| Routes.UploadCidIsFirstUploaded | server/routes.ts:338-389 | the upload succeeds exactly when some file yields a CID, and returns the first file's |
| Routes.UploadRecordsDataset | server/routes.ts:391-415 | with metadata and a working store, success appends one dataset with the CID, status "verified" and a file count that includes `metadata.json` |
| Auth.RequestNonce | server/auth.ts:12-31 | a missing, empty or non-string address is 400 and changes nothing; otherwise the nonce replaces the one under the lower-cased address and no other entry changes |
| Auth.Expire | server/auth.ts:26-28 | the entry for the address is gone whichever nonce it held, and nothing else changes |
| Auth.Verify | server/auth.ts:34-87 | missing fields are 400 before the store is read; no stored nonce and a message without the nonce are 400; a signature that recovers nothing or another address is 401; success exactly when none of these holds, logging in the lower-cased address and removing the nonce; every failure leaves state and nonce as they were |
| Auth.Status | server/auth.ts:90-101 | authenticated exactly when a session has both the flag and an address |
| Auth.Logout | server/auth.ts:104-115 | the nonce store is untouched; the answer is success exactly when there is no session or destroying it succeeds, and then the status is unauthenticated; a failed destroy is 500 and changes nothing |
| Auth.NonceSingleUse | server/auth.ts:73-74 | after a successful verify, another verify for that address in any case finds no nonce |
| Auth.IssueThenVerify | server/auth.ts:12-79 | issuing a nonce and signing the client's message with the address's key signs in and leaves no nonce |
| Auth.ExpiredNonceRejected | server/auth.ts:26-47 | after expiry, verify for that address answers "no nonce" |
| Auth.EarlierTimerDropsLaterNonce | server/auth.ts:23-28 | an earlier request's timer deletes a nonce issued later, and the signature over it is refused |
| Auth.VerifyIgnoresCase | server/auth.ts:41-59 | two spellings of one address get the same answer and the same state |
| Web3Storage.CheckCidExists | client/src/lib/web3storage.ts:107-120 | true exactly when the request answered ok with `exists` set |
| Web3Storage.VerifyLineage | client/src/lib/web3storage.ts:139-169 | verified exactly when the dataset and model exist and, when truthy, the processing CID; both are queried first, and the processing CID only when both exist |
| Web3Storage.EmptyProcessingIsAbsent | client/src/lib/web3storage.ts:154 | an empty processing CID behaves as none and is never queried |
| Web3Storage.NoApiKeyNoLineage | client/src/lib/web3storage.ts:146-151 | against a server without an API key, no lineage verifies |
| Web3Storage.StoreBackedLineage | server/routes.ts:490-496 | on the store-backed check path, a lineage verifies exactly when each CID belongs to a stored dataset |
| Web3Storage.RetrieveDataset | client/src/lib/web3storage.ts:68-93 | exactly the uploads with the CID, with their multiplicities, and an error when there are none or the request fails |
| Web3Storage.RetrieveKeepsOrder | client/src/lib/web3storage.ts:80-82 | matches keep list order across concatenation |
| Web3Storage.UploadDataset | client/src/lib/web3storage.ts:29-65 | the files are sent in order followed by exactly one `metadata.json`; success exactly when the server does; every failure has one message |
| Web3Storage.MetadataUploadedTwice | client/src/lib/web3storage.ts:35-46 | the server receives the client's `metadata.json` and adds its own, so it uploads two |
| RelationshipTable.TotalPages | client/src/components/RelationshipTable.tsx:51 | the fewest five-row pages that hold the list |
| RelationshipTable.PageItems | client/src/components/RelationshipTable.tsx:52-53 | page p holds the rows from `(p-1)*5`, at most five, in order, none past the end |
| RelationshipTable.PagesUpToPrefix | client/src/components/RelationshipTable.tsx:52-53 | the first k pages are the first `5k` rows |
| RelationshipTable.PagesCoverList | client/src/components/RelationshipTable.tsx:51-53 | pages 1 to `totalPages` concatenate to the whole list, and none is empty |
| RelationshipTable.RowOnItsPage | client/src/components/RelationshipTable.tsx:52-53 | row i is shown on page `i/5 + 1` at position `i%5` |
| RelationshipTable.Prev | client/src/components/RelationshipTable.tsx:175 | previous never goes below 1 |
| RelationshipTable.Next | client/src/components/RelationshipTable.tsx:194 | next is the following page before the last page, and the last page at or past it |
| RelationshipTable.ButtonsStayInRange | client/src/components/RelationshipTable.tsx:175-194 | from a page in range, every button leads to a page in range |
| RelationshipTable.Render | client/src/components/RelationshipTable.tsx:29-53 | loading shows the skeleton; an empty or absent list shows the empty message; otherwise the page's rows, the footer bounds and the disabled buttons |
| RelationshipTable.FooterMatchesRows | client/src/components/RelationshipTable.tsx:165-169 | on a page in range, the footer's range counts exactly the rows shown |
| RelationshipTable.StalePageShowsNothing | client/src/components/RelationshipTable.tsx:14-53 | a page past the end shows no rows and a backwards footer |
| UploadForm.AddTag | client/src/components/UploadForm.tsx:140-145 | the trimmed input is appended exactly when it is non-empty and new, and the input is cleared only then |
| UploadForm.AddTagKeepsTagsWellFormed | client/src/components/UploadForm.tsx:140-145 | tags stay distinct, non-empty and trimmed |
| UploadForm.AddTagTwiceAddsOnce | client/src/components/UploadForm.tsx:141 | adding the same text again adds nothing |
| UploadForm.RemoveTag | client/src/components/UploadForm.tsx:147-149 | the tag is gone, every other tag keeps its multiplicity, and the rest keep their order |
| UploadForm.RemoveTagKeepsTagsWellFormed | client/src/components/UploadForm.tsx:147-149 | removal keeps tags distinct, non-empty and trimmed |
| UploadForm.RemoveUndoesAddTag | client/src/components/UploadForm.tsx:140-149 | removing a tag just added restores the list |
| UploadForm.AddFiles | client/src/components/UploadForm.tsx:121-131 | new files come after the existing ones, in order |
| UploadForm.RemoveFile | client/src/components/UploadForm.tsx:151-153 | only that file object is removed; every other file keeps its multiplicity and order |
| UploadForm.RemoveUndoesAddFile | client/src/components/UploadForm.tsx:121-153 | removing a file just picked restores the list |
| UploadForm.ClickSubmit | client/src/components/UploadForm.tsx:427-430 | a click starts an upload exactly when the button is enabled (`SubmitEnabled`: files and no upload in flight) and the zod resolver accepts the metadata (every required field filled in); the button is then disabled; otherwise nothing changes; files, tags and the tag input are untouched |
| UploadForm.UntouchedFormDoesNotSubmit | client/src/components/UploadForm.tsx:42-53 | with a file picked, submitting the form's default values (empty name) starts nothing and leaves the button enabled |
| UploadForm.Submit | client/src/components/UploadForm.tsx:56-81 | no files is an error before anything is sent; the upload carries the form's tags; the dataset body carries the form's name, domain, format, license, access control, description and tags, the upload's CID and size, the file count, status "processing" and user 1 |
| UploadForm.SubmittedDatasetIsVerified | client/src/components/UploadForm.tsx:65-78 | the form's dataset body passes the schema, and the created record has the form's tags and file count but status "verified" |
| UploadForm.OnSuccess | client/src/components/UploadForm.tsx:82-88 | files, tags and the tag input are cleared, and submit is disabled |
| UploadForm.OnError | client/src/components/UploadForm.tsx:98-104 | files and tags are kept for another try |
| UploadForm.Cancel | client/src/components/UploadForm.tsx:419-423 | files and tags are cleared; the tag input is left as typed |
| UploadForm.RunKeepsTagsWellFormed | client/src/components/UploadForm.tsx:140-153 | after any sequence of user actions, the tags are still distinct, non-empty and trimmed |
| UploadForm.PendingUntilSettled | client/src/components/UploadForm.tsx:82-104 | once an upload is in flight, no action other than its success or failure re-enables the submit button |
| Common.FilterMultiset | server/storage.ts:284-286 | filtering keeps each passing element with its full multiplicity and drops the rest |
| Common.FilterConcat | client/src/lib/web3storage.ts:80-82 | filtering distributes over concatenation, so order is kept |
| Common.FilterSubsequence | client/src/components/UploadForm.tsx:148 | filtering only deletes, keeping what remains in order |
| Common.FilterFirst | server/storage.ts:84-85 | the first element kept is the first element of the list that passes the test |
| Common.FilterDistinct | client/src/components/UploadForm.tsx:148 | filtering a list without repeats leaves a list without repeats |

## Left out

- Timestamps: `uploadedAt`, `createdAt`, `usageDate`, `serverTimestamp` and the Date conversion in `convertFirestoreDoc` are dropped. No behaviour in the core depends on them.
- Firestore:
  - Reads, writes and query order are foreign. A collection is modelled as its documents in creation order: every create places the new document last, and "the first match" of a query is the first in that order.
  - Firestore lists a `getDocs` or `query` without `orderBy` by document ID, not by creation. After datasets 1 to 10 it lists "10" between "1" and "2", and a generated name can fall anywhere. That order is not modelled.
  - Generated document names are a parameter of the creating function.
  - Exceptions the SDK may throw, and the 500 answers and empty results they lead to, are not modelled.
- Column defaults: the table declaration gives status "processing", accessControl "public" and filesTotalCount 0 as SQL defaults. The Firestore store never applies them, so an omitted field stays absent in the model, and status is always forced to "verified".
- Schema.ValidateInsertDataset: JSON numbers are integers, so a non-integral number in an integer column is not modelled. A refusal is reduced to the list of offending keys; the route's `errors` detail is not modelled.
- Store.CreateUser: users are written with `addDoc` under generated names, like models, so `getUser` by id misses them (`Store.CreatedUserNotFoundById`). No route reads or writes users, so there is no corrected version.
- URL ids: `Number(req.params.id)` is not modelled. Handlers take the integer id, and an id that is not a number is not modelled.
- Text.ParseInt: leading white space is not skipped, and an explicit radix argument is not modelled. Document keys in this code have no leading white space.
- Text.Lower: only ASCII letters are lower-cased, not the full Unicode mapping. Addresses are hexadecimal.
- Store.GetUserByUsername, Store.FirstWithId, Store.GetDatasets, Store.GetModels, Store.GetRelationships: "first" and "in order" mean creation order, not Firestore's document-ID order, so which of two users with the same name is answered, and the order a list is reported in, may differ from the program's.
- Auth.RequestNonce / Auth.Verify: the nonce store is a plain JavaScript object, and keys that name `Object.prototype` members (`__proto__`, `constructor`, `toString` and the like) are not modelled. For them the program ignores the store write or reads an inherited member, and so answers 400 "Invalid nonce in message" where the model stores the nonce or answers "no nonce"; `Auth.ExpiredNonceRejected` likewise assumes an ordinary key.
- Auth.Verify: body fields are strings, "" standing for a missing or falsy value. A truthy non-string field, on which `toLowerCase` or `includes` would throw, is not modelled.
- Auth.Logout: cookies and the session store are not modelled. The destroy error is a flag.
- Signature recovery (EIP-191 personal-sign hashing and secp256k1 public-key recovery) is the oracle `recover`. Nonce randomness is a parameter constrained to 64 lower-case hex digits. The timer is the `Expire` event.
- Lighthouse:
  - The SDK, its mock, `/ipfs/uploads` and `/ipfs/deal-status` are oracles or are not modelled.
  - `RetrieveDataset` takes the uploads list, or its failure, as a parameter.
  - `getFilecoinDealStatus` is not part of this model.
- Routes.UploadedDataset: a truthy metadata value that is not a string (a number, an object, a non-list `tags`, or a `tags` list holding a non-string such as `[1, 2]`) is treated as missing and gets the fallback (`[]` for tags), whereas the handler would store it as it is.
- Upload I/O: multer, temporary files, `fs` writes, stats and unlinks, and `JSON.parse` are not modelled.
  - Whether a file path exists is a flag.
  - The size of the written `metadata.json` is a parameter.
  - Parsing is the three-way `MetadataPart`.
  - The handler's outer catch-all 500 is not modelled.
- `formatFileSize` (floating-point logarithms and `toFixed`) is the parameter `formatSize` on the server. On the client it is not modelled.
- Upload form: React rendering, drag highlighting, toasts, query invalidation and the reset of the metadata inputs by `form.reset()` are not modelled. The form's metadata values are the `DatasetMetadata` given to `Submit`.
- Relationship table: resolving names through `datasets.find` and `models.find` for display is not modelled.
- List endpoints: `GET /datasets`, `GET /models`, `GET /relationships` and the by-dataset and by-model routes only wrap the store reads, which are modelled as `Store.GetDatasets`, `Store.GetModels`, `Store.GetRelationships`, `Store.GetRelationshipsByDataset` and `Store.GetRelationshipsByModel`.

## Findings

| source | as written | input that shows it | evidently intended | confidence | as-written member | corrected member |
|---|---|---|---|---|---|---|
| server/storage.ts:244-262 | `createModel` stores the model with `addDoc` under a generated document name, but `getModel` reads `doc(models, id.toString())`. The id is also computed from `parseInt` of generated names, so it is usually 1. | an empty model collection and generated names "abc" then "xyz": both models get id 1 and `getModel(1)` finds nothing, so `GET /models/1` is 404 and `POST /relationships` answers "Model not found" | store the model under its numeric id with `setDoc`, as `createDataset` does | high; not executed | Store.AsWrittenModelIdsCollide | Store.CreateModel |
| server/storage.ts:304-337 | `createRelationship` stores the relationship with `addDoc` under a generated name, but `updateRelationshipStatus` reads `doc(relationships, id.toString())` | any collection, and a generated name other than the new id's numeral: `PATCH /relationships/:id/status` with the returned id answers 404 | store the relationship under its numeric id, so a status update by id finds it | high; not executed | Store.AsWrittenRelationshipNotUpdatable | Store.CreatedRelationshipUpdatable |

`Routes.PostModel` and `Routes.PostRelationship` use the store as written. At the HTTP level, `Routes.PostModelThenGet404` and `Routes.PostRelationshipThenPatch404` show the follow-up request answering 404. `Routes.PostModelFixed` and `Routes.PostRelationshipFixed` are the same handlers over the corrected store.

=== FILE: auth.dfy ===
/** The wallet authenticator: a per-address one-time nonce that the wallet signs,
    checked against the address the signature recovers to, and a session that
    remembers the authenticated address.

    The nonce store is keyed by the lower-cased address. Randomness, the
    ten-minute timer and signature recovery are parameters: the nonce is given
    to `RequestNonce`, the timer firing is the operation `Expire`, and
    recovery is an oracle that answers the signer's address or nothing when it
    throws. */
module Auth {
  import opened Common
  import opened Text

  /** The session fields the authenticator reads and writes; an empty address
      is JavaScript's missing one. */
  datatype Session = Session(walletAddress: string, authenticated: bool)

  /** The server's state: the nonce store and the request's session, which is
      missing when no session middleware ran. */
  datatype AuthState = AuthState(nonces: map<string, string>, session: Option<Session>)

  /** The `address` query parameter: missing, a single string, or anything else
      (a repeated parameter arrives as an array). */
  datatype QueryValue = Missing | Text(s: string) | Other

  datatype AuthReply =
    | NonceIssued(nonce: string)
    | Verified(address: string)
    | StatusReply(authenticated: bool, wallet: Option<string>)
    | LoggedOut
    | Error(code: nat, message: string)

  const MissingAddress := "Address is required"
  const MissingFields := "Address, signature, and message are required"
  const NoNonce := "No nonce found for this address or nonce expired"
  const InvalidNonce := "Invalid nonce in message"
  const Mismatch := "Signature verification failed"
  const InvalidSignature := "Invalid signature"

  predicate IsLowerHex(c: char) {
    '0' <= c <= '9' || 'a' <= c <= 'f'
  }

  /** 32 random bytes in lower-case hex. */
  predicate IsNonce(n: string) {
    |n| == 64 && forall i :: 0 <= i < |n| ==> IsLowerHex(n[i])
  }

  /** The message the client asks the wallet to sign for a nonce. */
  function SignedMessage(nonce: string): string {
    "Sign this message to authenticate with Cactus: " + nonce
  }

  /** GET /nonce: a missing, empty or non-string address is refused; otherwise
      the fresh nonce replaces whatever was stored for the lower-cased address. */
  function RequestNonce(st: AuthState, address: QueryValue, nonce: string): (r: (AuthState, AuthReply))
    requires IsNonce(nonce)
    ensures !(address.Text? && address.s != "") ==> r == (st, Error(400, MissingAddress))
    ensures address.Text? && address.s != "" ==>
              && r.1 == NonceIssued(nonce)
              && r.0.session == st.session
              && Lower(address.s) in r.0.nonces && r.0.nonces[Lower(address.s)] == nonce
              && (forall k :: k != Lower(address.s) ==> (k in r.0.nonces <==> k in st.nonces))
              && (forall k :: k != Lower(address.s) && k in st.nonces ==> r.0.nonces[k] == st.nonces[k])
  {
    if !(address.Text? && address.s != "") then (st, Error(400, MissingAddress))
    else (st.(nonces := st.nonces[Lower(address.s) := nonce]), NonceIssued(nonce))
  }

  /** The ten-minute timer set by a nonce request: it deletes whatever nonce is
      stored for the address when it fires, the one it was set for or a later one. */
  function Expire(st: AuthState, address: string): (r: AuthState)
    ensures Lower(address) !in r.nonces
    ensures forall k :: k in r.nonces <==> k in st.nonces && k != Lower(address)
    ensures forall k :: k in r.nonces ==> r.nonces[k] == st.nonces[k]
    ensures r.session == st.session
  {
    st.(nonces := st.nonces - {Lower(address)})
  }

  /** The nonce stored for a lower-cased address, "" when there is none (both are falsy). */
  function StoredNonce(st: AuthState, key: string): string {
    if key in st.nonces then st.nonces[key] else ""
  }

  /** POST /verify. The body fields are strings, "" standing for a missing or
      empty one; `recover(message, signature)` is the address the signature
      recovers to, or `None` when recovery throws. */
  function Verify(st: AuthState, address: string, signature: string, message: string,
                  recover: (string, string) -> Option<string>): (r: (AuthState, AuthReply))
    ensures address == "" || signature == "" || message == "" ==> r == (st, Error(400, MissingFields))
    ensures address != "" && signature != "" && message != "" && StoredNonce(st, Lower(address)) == ""
            ==> r == (st, Error(400, NoNonce))
    ensures address != "" && signature != "" && message != "" && StoredNonce(st, Lower(address)) != ""
            && !Contains(message, StoredNonce(st, Lower(address)))
            ==> r == (st, Error(400, InvalidNonce))
    ensures address != "" && signature != "" && message != "" && StoredNonce(st, Lower(address)) != ""
            && Contains(message, StoredNonce(st, Lower(address))) && recover(message, signature).None?
            ==> r == (st, Error(401, InvalidSignature))
    ensures address != "" && signature != "" && message != "" && StoredNonce(st, Lower(address)) != ""
            && Contains(message, StoredNonce(st, Lower(address))) && recover(message, signature).Some?
            && !SameIgnoringCase(recover(message, signature).value, address)
            ==> r == (st, Error(401, Mismatch))
    ensures r.1.Error? ==> r.0 == st
    ensures r.1.Error? ==> r.1.code in {400, 401}
    ensures r.1.Verified? <==>
              (&& address != "" && signature != "" && message != ""
               && StoredNonce(st, Lower(address)) != ""
               && Contains(message, StoredNonce(st, Lower(address)))
               && recover(message, signature).Some?
               && SameIgnoringCase(recover(message, signature).value, address))
    ensures r.1.Verified? ==>
              && r.1.address == Lower(address)
              && r.0.nonces == st.nonces - {Lower(address)}
              && (st.session.Some? ==> r.0.session == Some(Session(Lower(address), true)))
              && (st.session.None? ==> r.0.session.None?)
    ensures r.1.Verified? || r.1.Error?
  {
    if address == "" || signature == "" || message == "" then (st, Error(400, MissingFields))
    else
      var key := Lower(address);
      var stored := StoredNonce(st, key);
      if stored == "" then (st, Error(400, NoNonce))
      else if !Contains(message, stored) then (st, Error(400, InvalidNonce))
      else match recover(message, signature)
        case None => (st, Error(401, InvalidSignature))
        case Some(recovered) =>
          if Lower(recovered) != key then (st, Error(401, Mismatch))
          else
            assert Lower(Lower(address)) == key by { LowerIdempotent(address); }
            var session := if st.session.Some? then Some(Session(key, true)) else None;
            (AuthState(st.nonces - {key}, session), Verified(key))
  }

  /** GET /status: authenticated only with a session whose flag is set and whose address is not empty. */
  function Status(st: AuthState): (r: AuthReply)
    ensures r.StatusReply?
    ensures r.authenticated <==> st.session.Some? && st.session.value.authenticated && st.session.value.walletAddress != ""
    ensures r.authenticated ==> r.wallet == Some(st.session.value.walletAddress)
    ensures !r.authenticated ==> r.wallet.None?
  {
    match st.session
    case Some(s) =>
      if s.authenticated && s.walletAddress != "" then StatusReply(true, Some(s.walletAddress))
      else StatusReply(false, None)
    case None => StatusReply(false, None)
  }

  /** POST /logout: destroying the session forgets the address; `destroyFails`
      is the session store's error, answered with 500. Nonces are untouched. */
  function Logout(st: AuthState, destroyFails: bool): (r: (AuthState, AuthReply))
    ensures r.0.nonces == st.nonces
    ensures st.session.None? ==> r == (st, LoggedOut)
    ensures st.session.Some? && destroyFails ==> r == (st, Error(500, "Failed to logout"))
    ensures r.1 == LoggedOut ==> Status(r.0) == StatusReply(false, None)
    ensures r.1 == LoggedOut <==> st.session.None? || !destroyFails
    ensures st.session.Some? && !destroyFails ==> r.1 == LoggedOut && !Status(r.0).authenticated
  {
    if st.session.None? then (st, LoggedOut)
    else if destroyFails then (st, Error(500, "Failed to logout"))
    else (st.(session := Some(Session("", false))), LoggedOut)
  }

  // ---------------------------------------------------------------------------
  // Properties of the protocol

  /** A nonce is good for one sign-in: once a signature has been accepted, any
      further attempt for the same address, whatever its case, finds no nonce. */
  lemma NonceSingleUse(st: AuthState, address: string, signature: string, message: string,
                       recover: (string, string) -> Option<string>,
                       address2: string, signature2: string, message2: string,
                       recover2: (string, string) -> Option<string>)
    requires Verify(st, address, signature, message, recover).1.Verified?
    requires SameIgnoringCase(address2, address)
    requires address2 != "" && signature2 != "" && message2 != ""
    ensures var st1 := Verify(st, address, signature, message, recover).0;
            Verify(st1, address2, signature2, message2, recover2) == (st1, Error(400, NoNonce))
  {
    var st1 := Verify(st, address, signature, message, recover).0;
    assert Lower(address2) !in st1.nonces;
  }

  /** The happy path: after a nonce is issued for an address, signing the
      client's message for that nonce with the address's key signs the user in,
      and the session then reports the lower-cased address. */
  lemma IssueThenVerify(st: AuthState, address: string, nonce: string, signature: string,
                        recover: (string, string) -> Option<string>)
    requires IsNonce(nonce) && address != "" && signature != ""
    requires st.session.Some?
    requires recover(SignedMessage(nonce), signature).Some?
    requires SameIgnoringCase(recover(SignedMessage(nonce), signature).value, address)
    ensures var st1 := RequestNonce(st, Text(address), nonce).0;
            var (st2, reply) := Verify(st1, address, signature, SignedMessage(nonce), recover);
            && reply == Verified(Lower(address))
            && Status(st2) == StatusReply(true, Some(Lower(address)))
            && Lower(address) !in st2.nonces
  {
    var st1 := RequestNonce(st, Text(address), nonce).0;
    assert StoredNonce(st1, Lower(address)) == nonce;
    ContainsSuffix("Sign this message to authenticate with Cactus: ", nonce);
    var v := Verify(st1, address, signature, SignedMessage(nonce), recover);
    assert v.1.Verified?;
    assert Lower(address) != "";
  }

  /** Once the timer has fired for an address, no message verifies for it until
      a new nonce is requested. */
  lemma ExpiredNonceRejected(st: AuthState, address: string, address2: string, signature: string, message: string,
                             recover: (string, string) -> Option<string>)
    requires SameIgnoringCase(address2, address)
    requires address2 != "" && signature != "" && message != ""
    ensures var st1 := Expire(st, address);
            Verify(st1, address2, signature, message, recover) == (st1, Error(400, NoNonce))
  {
    assert StoredNonce(Expire(st, address), Lower(address2)) == "";
  }

  /** The timer of an earlier request is not cancelled by a later one: when it
      fires it deletes the later nonce too, so the user's signature over the
      newer nonce is refused. */
  lemma EarlierTimerDropsLaterNonce(st: AuthState, address: string, first: string, second: string,
                                    signature: string, recover: (string, string) -> Option<string>)
    requires IsNonce(first) && IsNonce(second) && address != "" && signature != ""
    ensures var st1 := RequestNonce(st, Text(address), first).0;
            var st2 := RequestNonce(st1, Text(address), second).0;
            var st3 := Expire(st2, address);
            && StoredNonce(st2, Lower(address)) == second
            && Verify(st3, address, signature, SignedMessage(second), recover).1 == Error(400, NoNonce)
  {
    var st3 := Expire(RequestNonce(RequestNonce(st, Text(address), first).0, Text(address), second).0, address);
    assert StoredNonce(st3, Lower(address)) == "";
  }

  /** The authenticator treats addresses case-insensitively: two spellings of
      the same address get the same answer and leave the same state. */
  lemma {:induction false} VerifyIgnoresCase(st: AuthState, a: string, b: string, signature: string, message: string,
                                             recover: (string, string) -> Option<string>)
    requires SameIgnoringCase(a, b)
    ensures Verify(st, a, signature, message, recover) == Verify(st, b, signature, message, recover)
  {
  }
}

=== FILE: common.dfy ===
/** Failure-carrying result types and the order-preserving filter that the
    server queries and the client lists are built from. */
module Common {

  /** A value that may be missing: JavaScript's `undefined` on a lookup. */
  datatype Option<+T> = None | Some(value: T) {

    /** The carried value, or `default` when there is none (JavaScript's `x || default`
        for values that are never falsy). */
    function GetOr(default: T): T {
      match this
      case Some(v) => v
      case None => default
    }
  }

  /** Either a value or an error, for operations that throw or answer with an error status. */
  datatype Result<+T, +E> = Ok(value: T) | Err(error: E)

  /** The elements of `s` that satisfy `p`, in their original order (`Array.prototype.filter`). */
  function Filter<T>(s: seq<T>, p: T -> bool): (r: seq<T>)
    ensures |r| <= |s|
    ensures forall i :: 0 <= i < |r| ==> p(r[i])
    ensures forall i :: 0 <= i < |r| ==> r[i] in s
    ensures forall i :: 0 <= i < |s| && p(s[i]) ==> s[i] in r
  {
    if |s| == 0 then []
    else if p(s[0]) then [s[0]] + Filter(s[1..], p)
    else Filter(s[1..], p)
  }

  /** Filtering keeps each element with its full multiplicity exactly when it passes the test. */
  lemma {:induction false} FilterMultiset<T>(s: seq<T>, p: T -> bool)
    ensures forall x :: multiset(Filter(s, p))[x] == if p(x) then multiset(s)[x] else 0
  {
    if |s| == 0 {
    } else {
      FilterMultiset(s[1..], p);
      assert s == [s[0]] + s[1..];
      assert multiset(s) == multiset{s[0]} + multiset(s[1..]);
    }
  }

  /** Filtering distributes over concatenation, so it never reorders what it keeps. */
  lemma {:induction false} FilterConcat<T>(a: seq<T>, b: seq<T>, p: T -> bool)
    ensures Filter(a + b, p) == Filter(a, p) + Filter(b, p)
  {
    if |a| == 0 {
      assert a + b == b;
    } else {
      assert (a + b)[1..] == a[1..] + b;
      FilterConcat(a[1..], b, p);
    }
  }

  /** Filtering with a test every element passes changes nothing. */
  lemma {:induction false} FilterAll<T>(s: seq<T>, p: T -> bool)
    requires forall i :: 0 <= i < |s| ==> p(s[i])
    ensures Filter(s, p) == s
  {
    if |s| > 0 {
      FilterAll(s[1..], p);
    }
  }

  /** `r` is what remains of `s` after deleting some of its elements: the same
      elements in the same relative order. */
  ghost predicate SubsequenceOf<T>(r: seq<T>, s: seq<T>)
    decreases |s|
  {
    || |r| == 0
    || (|s| > 0 && ((r[0] == s[0] && SubsequenceOf(r[1..], s[1..])) || SubsequenceOf(r, s[1..])))
  }

  /** Filtering only deletes: what it keeps stays in its original order. */
  lemma {:induction false} FilterSubsequence<T>(s: seq<T>, p: T -> bool)
    ensures SubsequenceOf(Filter(s, p), s)
  {
    if |s| > 0 {
      FilterSubsequence(s[1..], p);
      if p(s[0]) {
        assert Filter(s, p)[1..] == Filter(s[1..], p);
      }
    }
  }

  /** The first element kept is the first element of `s` that passes the test. */
  lemma {:induction false} FilterFirst<T>(s: seq<T>, p: T -> bool)
    requires |Filter(s, p)| > 0
    ensures exists i :: 0 <= i < |s| && s[i] == Filter(s, p)[0] && forall j :: 0 <= j < i ==> !p(s[j])
  {
    if !p(s[0]) {
      FilterFirst(s[1..], p);
      var i :| 0 <= i < |s[1..]| && s[1..][i] == Filter(s[1..], p)[0] && forall j :: 0 <= j < i ==> !p(s[1..][j]);
      assert s[i + 1] == Filter(s, p)[0];
      forall j | 0 <= j < i + 1 ensures !p(s[j]) {
        if j > 0 {
          assert s[j] == s[1..][j - 1];
        }
      }
    } else {
      assert s[0] == Filter(s, p)[0];
    }
  }

  /** No element occurs twice. */
  predicate Distinct<T(==)>(s: seq<T>) {
    forall i, j :: 0 <= i < j < |s| ==> s[i] != s[j]
  }

  /** Filtering a list without repeats leaves a list without repeats. */
  lemma {:induction false} FilterDistinct<T>(s: seq<T>, p: T -> bool)
    requires Distinct(s)
    ensures Distinct(Filter(s, p))
  {
    if |s| > 0 {
      FilterDistinct(s[1..], p);
      var rest := Filter(s[1..], p);
      assert s[0] !in s[1..];
      assert s[0] !in rest;
    }
  }
}

=== FILE: relationship_table.dfy ===
/** The relationship table's pagination: five rows a page, numbered pages with
    previous/next buttons that stay in range, and a footer naming the rows shown. */
module RelationshipTable {
  import opened Common

  const PageSize: nat := 5

  /** `Math.ceil(n / pageSize)`. */
  function TotalPages(n: nat): (t: nat)
    ensures t * PageSize >= n
    ensures t > 0 ==> (t - 1) * PageSize < n
    ensures n == 0 <==> t == 0
  {
    (n + PageSize - 1) / PageSize
  }

  function Min(a: int, b: int): int { if a <= b then a else b }

  function Max(a: int, b: int): int { if a >= b then a else b }

  /** `(page - 1) * pageSize`, the index of the page's first row. */
  function StartIndex(page: int): int {
    (page - 1) * PageSize
  }

  /** `items.slice(start, start + pageSize)` for a page numbered from 1: the rows
      from the page's start, at most five, none when the page is past the end. */
  function PageItems<T>(items: seq<T>, page: int): (r: seq<T>)
    requires page >= 1
    ensures |r| == Max(0, Min(PageSize, |items| - StartIndex(page)))
    ensures forall i :: 0 <= i < |r| ==> r[i] == items[StartIndex(page) + i]
  {
    var start := Min(StartIndex(page), |items|);
    var end := Min(StartIndex(page) + PageSize, |items|);
    items[start..end]
  }

  /** Pages 1 to k, one after the other. */
  function PagesUpTo<T>(items: seq<T>, k: nat): seq<T> {
    if k == 0 then [] else PagesUpTo(items, k - 1) + PageItems(items, k)
  }

  /** The first k pages are the first `5 * k` rows. */
  lemma {:induction false} PagesUpToPrefix<T>(items: seq<T>, k: nat)
    ensures PagesUpTo(items, k) == items[..Min(k * PageSize, |items|)]
  {
    if k > 0 {
      PagesUpToPrefix(items, k - 1);
      var a := Min((k - 1) * PageSize, |items|);
      var b := Min(k * PageSize, |items|);
      assert PageItems(items, k) == items[a..b];
      assert items[..a] + items[a..b] == items[..b];
    }
  }

  /** Reading every page in turn shows each row exactly once, in order, and no page is blank. */
  lemma PagesCoverList<T>(items: seq<T>)
    ensures PagesUpTo(items, TotalPages(|items|)) == items
    ensures forall p :: 1 <= p <= TotalPages(|items|) ==> |PageItems(items, p)| > 0
  {
    PagesUpToPrefix(items, TotalPages(|items|));
    assert items[..|items|] == items;
  }

  /** A row's page and position there: row i is on page `i / 5 + 1`. */
  lemma RowOnItsPage<T>(items: seq<T>, i: nat)
    requires i < |items|
    ensures 1 <= i / PageSize + 1 <= TotalPages(|items|)
    ensures PageItems(items, i / PageSize + 1)[i % PageSize] == items[i]
  {
  }

  /** The previous button: `Math.max(1, p - 1)`. */
  function Prev(page: int): (p: int)
    ensures p >= 1
    ensures page > 1 ==> p == page - 1
    ensures page <= 1 ==> p == 1
  {
    Max(1, page - 1)
  }

  /** The next button: `Math.min(totalPages, p + 1)`. */
  function Next(page: int, totalPages: nat): (p: int)
    ensures p <= totalPages
    ensures page < totalPages ==> p == page + 1
    ensures page >= totalPages ==> p == totalPages
    ensures 1 <= page && totalPages >= 1 ==> p >= 1
  {
    Min(totalPages, page + 1)
  }

  /** Every page the buttons can lead to, from a page in range, is in range. */
  lemma ButtonsStayInRange(page: int, totalPages: nat, i: nat)
    requires 1 <= page <= totalPages
    ensures 1 <= Prev(page) <= totalPages
    ensures 1 <= Next(page, totalPages) <= totalPages
    ensures i < totalPages ==> 1 <= i + 1 <= totalPages
  {
  }

  /** What the table renders: the loading skeleton, the empty message, or a
      page of rows with its footer "Showing from to to of total" and the
      disabled state of the two buttons. */
  datatype View<T> =
    | Loading
    | Empty
    | Table(rows: seq<T>, from: int, to: int, total: nat, pages: nat, prevDisabled: bool, nextDisabled: bool)

  /** The table for the query's state (`None` is a list not fetched) on page `page`. */
  function Render<T>(loading: bool, relationships: Option<seq<T>>, page: int): (v: View<T>)
    requires page >= 1
    ensures loading ==> v.Loading?
    ensures !loading && (relationships.None? || |relationships.value| == 0) ==> v.Empty?
    ensures v.Table? <==> !loading && relationships.Some? && |relationships.value| > 0
    ensures v.Table? ==>
              && v.rows == PageItems(relationships.value, page)
              && v.total == |relationships.value|
              && v.pages == TotalPages(v.total) && v.pages >= 1
              && v.from == StartIndex(page) + 1
              && v.to == Min(StartIndex(page) + PageSize, v.total)
              && (v.prevDisabled <==> page == 1)
              && (v.nextDisabled <==> page == v.pages)
  {
    if loading then Loading
    else match relationships
      case None => Empty
      case Some(items) =>
        if |items| == 0 then Empty
        else
          var total := TotalPages(|items|);
          var start := StartIndex(page);
          Table(PageItems(items, page), start + 1, Min(start + PageSize, |items|), |items|, total, page == 1, page == total)
  }

  /** On a page in range the footer counts exactly the rows shown. */
  lemma FooterMatchesRows<T>(items: seq<T>, page: int)
    requires |items| > 0 && 1 <= page <= TotalPages(|items|)
    ensures var v := Render(false, Some(items), page);
            v.Table? && 1 <= v.from <= v.to <= v.total && v.to - v.from + 1 == |v.rows|
  {
  }

  /** The page number is not reset when the list shrinks: a page past the new
      end shows no rows, and its footer starts after it ends. */
  lemma StalePageShowsNothing<T>(items: seq<T>, page: int)
    requires |items| > 0 && page > TotalPages(|items|)
    ensures var v := Render(false, Some(items), page);
            v.Table? && |v.rows| == 0 && v.from > v.to && !v.nextDisabled
  {
  }
}

=== FILE: routes.dfy ===
/** The HTTP handlers around the record store: the dataset, model and
    relationship endpoints with their guards, the status updates, the metadata
    validator, the CID existence check and the multi-file upload.

    Each handler takes the store and returns the store after the request with
    the response; the content network's client is given as oracles. */
module Routes {
  import opened Common
  import opened Text
  import opened Schema
  import opened Store

  /** A JSON response: a success code with its payload, or an error code with its message. */
  datatype Response<T> = Success(code: nat, value: T) | Failure(code: nat, message: string)

  // ---------------------------------------------------------------------------
  // Datasets

  function GetDatasetRoute(db: Db, id: int): (r: Response<Dataset>)
    ensures r.Failure? <==> GetDataset(db.datasets, id).None?
    ensures r.Failure? ==> r == Failure(404, "Dataset not found")
    ensures r.Success? ==> r.code == 200 && GetDataset(db.datasets, id) == Some(r.value)
  {
    match GetDataset(db.datasets, id)
    case None => Failure(404, "Dataset not found")
    case Some(d) => Success(200, d)
  }

  /** POST /datasets: a body the insert schema refuses is a 400 and creates nothing. */
  function PostDataset(db: Db, body: Body): (r: (Db, Response<Dataset>))
    ensures r.1.Failure? <==> !DatasetBodyValid(body)
    ensures r.1.Failure? ==> r.1.code == 400 && r.0 == db
    ensures r.1.Success? ==> r.1.code == 201 && r.1.value.status == "verified"
    ensures r.1.Success? ==> r.0 == db.(datasets := db.datasets + [Entry(IntToString(r.1.value.id), r.1.value)])
    ensures r.1.Success? ==> r.1.value.fields.name == Field(body, "name").s && r.1.value.fields.cid == Field(body, "cid").s
    ensures r.1.Success? ==> r.1.value.fields == ValidateInsertDataset(body).value.fields && r.1.value.id == NextId(db.datasets)
  {
    match ValidateInsertDataset(body)
    case Err(_) => (db, Failure(400, "Invalid dataset data"))
    case Ok(ins) =>
      var (c, d) := CreateDataset(db.datasets, ins);
      (db.(datasets := c), Success(201, d))
  }

  /** The status a PATCH body may carry: `!status || typeof status !== "string"` refuses it. */
  predicate ValidStatus(status: Json) {
    status.Str? && status.s != ""
  }

  /** PATCH /datasets/:id/status: 400 for a missing, empty or non-string status
      (before the store is consulted), 404 for an unknown id, else the updated record. */
  function PatchDatasetStatus(db: Db, id: int, status: Json): (r: (Db, Response<Dataset>))
    ensures !ValidStatus(status) ==> r.1 == Failure(400, "Status is required") && r.0 == db
    ensures ValidStatus(status) && !HasKey(db.datasets, IntToString(id)) ==> r.1 == Failure(404, "Dataset not found") && r.0 == db
    ensures r.1.Success? ==> r.1.code == 200 && r.1.value.status == status.s
    ensures r.1.Success? ==>
              exists i :: 0 <= i < |db.datasets| && db.datasets[i].key == IntToString(id) && r.1.value == db.datasets[i].data.(status := status.s)
    ensures r.0.users == db.users && r.0.models == db.models && r.0.relationships == db.relationships
    ensures ValidStatus(status) && HasKey(db.datasets, IntToString(id)) ==> r.1.Success?
    ensures r.1.Success? ==> r.0 == db.(datasets := UpdateDatasetStatus(db.datasets, id, status.s).0)
  {
    if !ValidStatus(status) then (db, Failure(400, "Status is required"))
    else
      var (c, found) := UpdateDatasetStatus(db.datasets, id, status.s);
      match found
      case None => (db, Failure(404, "Dataset not found"))
      case Some(d) => (db.(datasets := c), Success(200, d))
  }

  // ---------------------------------------------------------------------------
  // Models

  function GetModelRoute(db: Db, id: int): (r: Response<Model>)
    ensures r.Failure? <==> !HasKey(db.models, IntToString(id))
    ensures r.Failure? ==> r == Failure(404, "Model not found")
    ensures r.Success? ==> r.code == 200 && GetModel(db.models, id) == Some(r.value)
  {
    match GetModel(db.models, id)
    case None => Failure(404, "Model not found")
    case Some(m) => Success(200, m)
  }

  /** POST /models: a body the insert schema refuses is a 400 and creates
      nothing; otherwise the model, with the next id, is stored through `addDoc`
      under the store's generated name. */
  function PostModel(db: Db, body: Body, generatedKey: string): (r: (Db, Response<Model>))
    requires !HasKey(db.models, generatedKey)
    ensures r.1.Failure? <==> !ModelBodyValid(body)
    ensures r.1.Failure? ==> r.1.code == 400 && r.0 == db
    ensures r.1.Success? ==>
              && r.1.code == 201
              && r.1.value.fields == ValidateInsertModel(body).value
              && r.1.value.id == NextId(db.models)
              && r.0 == db.(models := db.models + [Entry(generatedKey, r.1.value)])
  {
    match ValidateInsertModel(body)
    case Err(_) => (db, Failure(400, "Invalid model data"))
    case Ok(ins) =>
      var (c, m) := CreateModelAsWritten(db.models, ins, generatedKey);
      (db.(models := c), Success(201, m))
  }

  /** The model a POST reports cannot be fetched by its id: GET /models/:id
      answers 404 unless the generated name happens to be the id's numeral. */
  lemma PostModelThenGet404(db: Db, body: Body, generatedKey: string)
    requires !HasKey(db.models, generatedKey)
    requires generatedKey != IntToString(NextId(db.models))
    requires ModelBodyValid(body)
    ensures var (db1, response) := PostModel(db, body, generatedKey);
            response.Success? && GetModelRoute(db1, response.value.id) == Failure(404, "Model not found")
  {
    AsWrittenModelNotFound(db.models, ValidateInsertModel(body).value, generatedKey);
  }

  /** POST /models with the corrected store: the model is stored under its id
      and can be found again by it. */
  function PostModelFixed(db: Db, body: Body): (r: (Db, Response<Model>))
    ensures r.1.Failure? <==> !ModelBodyValid(body)
    ensures r.1.Failure? ==> r.1.code == 400 && r.0 == db
    ensures r.1.Success? ==> r.1.code == 201 && GetModel(r.0.models, r.1.value.id) == Some(r.1.value)
    ensures r.1.Success? ==> r.1.value.fields == ValidateInsertModel(body).value
    ensures r.1.Success? ==> r.0 == db.(models := db.models + [Entry(IntToString(r.1.value.id), r.1.value)])
  {
    match ValidateInsertModel(body)
    case Err(_) => (db, Failure(400, "Invalid model data"))
    case Ok(ins) =>
      var (c, m) := CreateModel(db.models, ins);
      (db.(models := c), Success(201, m))
  }

  // ---------------------------------------------------------------------------
  // Relationships

  /** POST /relationships: after the schema check, a missing dataset is reported
      before the model is looked at, and the relationship is created only when
      both exist, with the next id, through `addDoc` under the store's generated
      name; a refused request changes nothing. */
  function PostRelationship(db: Db, body: Body, generatedKey: string): (r: (Db, Response<Relationship>))
    requires !HasKey(db.relationships, generatedKey)
    ensures !RelationshipBodyValid(body) ==> r.1 == Failure(400, "Invalid relationship data") && r.0 == db
    ensures r.1.Failure? ==> r.1.code == 400 && r.0 == db
    ensures RelationshipBodyValid(body) && GetDataset(db.datasets, Field(body, "datasetId").n).None?
            ==> r.1 == Failure(400, "Dataset not found")
    ensures RelationshipBodyValid(body) && GetDataset(db.datasets, Field(body, "datasetId").n).Some?
            && GetModel(db.models, Field(body, "modelId").n).None?
            ==> r.1 == Failure(400, "Model not found")
    ensures r.1.Success? <==>
              (&& RelationshipBodyValid(body)
               && GetDataset(db.datasets, Field(body, "datasetId").n).Some?
               && GetModel(db.models, Field(body, "modelId").n).Some?)
    ensures r.1.Success? ==>
              && r.1.code == 201 && r.1.value.status == "verified"
              && r.1.value.fields == ValidateInsertRelationship(body).value.fields
              && r.1.value.id == NextId(db.relationships)
    ensures r.1.Success? ==> r.0 == db.(relationships := db.relationships + [Entry(generatedKey, r.1.value)])
  {
    match ValidateInsertRelationship(body)
    case Err(_) => (db, Failure(400, "Invalid relationship data"))
    case Ok(ins) =>
      if GetDataset(db.datasets, ins.fields.datasetId).None? then (db, Failure(400, "Dataset not found"))
      else if GetModel(db.models, ins.fields.modelId).None? then (db, Failure(400, "Model not found"))
      else
        var (c, rel) := CreateRelationshipAsWritten(db.relationships, ins, generatedKey);
        (db.(relationships := c), Success(201, rel))
  }

  /** The relationship a POST reports cannot have its status changed by its id:
      PATCH /relationships/:id/status answers 404 unless the generated name
      happens to be the id's numeral. */
  lemma PostRelationshipThenPatch404(db: Db, body: Body, generatedKey: string, status: Json)
    requires !HasKey(db.relationships, generatedKey)
    requires generatedKey != IntToString(NextId(db.relationships))
    requires PostRelationship(db, body, generatedKey).1.Success?
    requires ValidStatus(status)
    ensures var (db1, response) := PostRelationship(db, body, generatedKey);
            PatchRelationshipStatus(db1, response.value.id, status).1 == Failure(404, "Relationship not found")
  {
    AsWrittenRelationshipNotUpdatable(db.relationships, ValidateInsertRelationship(body).value, generatedKey, status.s);
  }

  /** POST /relationships with the corrected store, which names the new
      relationship by its id: after the schema check, a missing dataset is reported
      before the model is looked at, and the relationship is created only when
      both exist; a refused request changes nothing. */
  function PostRelationshipFixed(db: Db, body: Body): (r: (Db, Response<Relationship>))
    ensures !RelationshipBodyValid(body) ==> r.1 == Failure(400, "Invalid relationship data") && r.0 == db
    ensures r.1.Failure? ==> r.1.code == 400 && r.0 == db
    ensures RelationshipBodyValid(body) && GetDataset(db.datasets, Field(body, "datasetId").n).None?
            ==> r.1 == Failure(400, "Dataset not found")
    ensures RelationshipBodyValid(body) && GetDataset(db.datasets, Field(body, "datasetId").n).Some?
            && GetModel(db.models, Field(body, "modelId").n).None?
            ==> r.1 == Failure(400, "Model not found")
    ensures r.1.Success? <==>
              (&& RelationshipBodyValid(body)
               && GetDataset(db.datasets, Field(body, "datasetId").n).Some?
               && GetModel(db.models, Field(body, "modelId").n).Some?)
    ensures r.1.Success? ==>
              && r.1.code == 201 && r.1.value.status == "verified"
              && r.1.value.fields.datasetId == Field(body, "datasetId").n
              && r.1.value.fields.modelId == Field(body, "modelId").n
    ensures r.1.Success? ==> r.0 == db.(relationships := db.relationships + [Entry(IntToString(r.1.value.id), r.1.value)])
  {
    match ValidateInsertRelationship(body)
    case Err(_) => (db, Failure(400, "Invalid relationship data"))
    case Ok(ins) =>
      if GetDataset(db.datasets, ins.fields.datasetId).None? then (db, Failure(400, "Dataset not found"))
      else if GetModel(db.models, ins.fields.modelId).None? then (db, Failure(400, "Model not found"))
      else
        var (c, rel) := CreateRelationship(db.relationships, ins);
        (db.(relationships := c), Success(201, rel))
  }

  /** PATCH /relationships/:id/status: 400 for a missing, empty or non-string
      status, 404 for an unknown id, else the updated record. */
  function PatchRelationshipStatus(db: Db, id: int, status: Json): (r: (Db, Response<Relationship>))
    ensures !ValidStatus(status) ==> r.1 == Failure(400, "Status is required") && r.0 == db
    ensures ValidStatus(status) && !HasKey(db.relationships, IntToString(id))
            ==> r.1 == Failure(404, "Relationship not found") && r.0 == db
    ensures r.1.Success? ==> r.1.code == 200 && r.1.value.status == status.s
    ensures r.1.Success? ==>
              exists i :: 0 <= i < |db.relationships| && db.relationships[i].key == IntToString(id) && r.1.value == db.relationships[i].data.(status := status.s)
    ensures r.0.users == db.users && r.0.datasets == db.datasets && r.0.models == db.models
    ensures |r.0.relationships| == |db.relationships|
    ensures forall i :: 0 <= i < |db.relationships| ==> r.0.relationships[i].data.fields == db.relationships[i].data.fields
    ensures ValidStatus(status) && HasKey(db.relationships, IntToString(id)) ==> r.1.Success?
    ensures r.1.Success? ==> r.0 == db.(relationships := UpdateRelationshipStatus(db.relationships, id, status.s).0)
  {
    if !ValidStatus(status) then (db, Failure(400, "Status is required"))
    else
      var (c, found) := UpdateRelationshipStatus(db.relationships, id, status.s);
      match found
      case None => (db, Failure(404, "Relationship not found"))
      case Some(rel) => (db.(relationships := c), Success(200, rel))
  }

  /** Every stored relationship names a dataset and a model the store can find. */
  ghost predicate NoOrphanEdges(db: Db) {
    forall i :: 0 <= i < |db.relationships| ==>
      && GetDataset(db.datasets, db.relationships[i].data.fields.datasetId).Some?
      && GetModel(db.models, db.relationships[i].data.fields.modelId).Some?
  }

  /** Appending an edge whose dataset and model can be found keeps the store free of orphans. */
  lemma AppendEdgeKeepsEdges(db: Db, e: Entry<Relationship>)
    requires NoOrphanEdges(db)
    requires GetDataset(db.datasets, e.data.fields.datasetId).Some?
    requires GetModel(db.models, e.data.fields.modelId).Some?
    ensures NoOrphanEdges(db.(relationships := db.relationships + [e]))
  {
    var db1 := db.(relationships := db.relationships + [e]);
    forall i | 0 <= i < |db1.relationships|
      ensures GetDataset(db1.datasets, db1.relationships[i].data.fields.datasetId).Some?
      ensures GetModel(db1.models, db1.relationships[i].data.fields.modelId).Some?
    {
      if i < |db.relationships| {
        assert db1.relationships[i] == db.relationships[i];
      } else {
        assert db1.relationships[i] == e;
      }
    }
  }

  /** A relationship is created only between a dataset and a model that both
      exist, so creating one never leaves an orphan edge. */
  lemma PostRelationshipKeepsEdges(db: Db, body: Body, generatedKey: string)
    requires NoOrphanEdges(db) && !HasKey(db.relationships, generatedKey)
    ensures NoOrphanEdges(PostRelationship(db, body, generatedKey).0)
  {
    var r := PostRelationship(db, body, generatedKey);
    if r.1.Success? {
      var rel := r.1.value;
      assert rel.fields.datasetId == Field(body, "datasetId").n && rel.fields.modelId == Field(body, "modelId").n;
      AppendEdgeKeepsEdges(db, Entry(generatedKey, rel));
    }
  }

  /** The same guards protect the corrected route. */
  lemma PostRelationshipFixedKeepsEdges(db: Db, body: Body)
    requires NoOrphanEdges(db)
    ensures NoOrphanEdges(PostRelationshipFixed(db, body).0)
  {
    var r := PostRelationshipFixed(db, body);
    if r.1.Success? {
      var rel := r.1.value;
      assert rel.fields.datasetId == Field(body, "datasetId").n && rel.fields.modelId == Field(body, "modelId").n;
      AppendEdgeKeepsEdges(db, Entry(IntToString(rel.id), rel));
    }
  }

  /** Adding a dataset leaves every dataset that could be found findable. */
  lemma PostDatasetKeepsEdges(db: Db, body: Body)
    requires NoOrphanEdges(db)
    ensures NoOrphanEdges(PostDataset(db, body).0)
  {
    var r := PostDataset(db, body);
    if r.1.Success? {
      var e := Entry(IntToString(r.1.value.id), r.1.value);
      assert r.0.datasets == db.datasets + [e] && r.0.relationships == db.relationships;
      forall i | 0 <= i < |r.0.relationships|
        ensures GetDataset(r.0.datasets, r.0.relationships[i].data.fields.datasetId).Some?
      {
        GetDatasetGrows(db.datasets, e, db.relationships[i].data.fields.datasetId);
      }
    }
  }

  /** Appending a model document, under any name, leaves every model that could be found findable. */
  lemma AppendModelKeepsEdges(db: Db, e: Entry<Model>)
    requires NoOrphanEdges(db)
    ensures NoOrphanEdges(db.(models := db.models + [e]))
  {
    forall i | 0 <= i < |db.relationships|
      ensures GetModel(db.models + [e], db.relationships[i].data.fields.modelId).Some?
    {
      GetModelGrows(db.models, e, db.relationships[i].data.fields.modelId);
    }
  }

  /** Adding a model orphans no edge. */
  lemma PostModelKeepsEdges(db: Db, body: Body, generatedKey: string)
    requires NoOrphanEdges(db) && !HasKey(db.models, generatedKey)
    ensures NoOrphanEdges(PostModel(db, body, generatedKey).0)
  {
    var r := PostModel(db, body, generatedKey);
    if r.1.Success? {
      AppendModelKeepsEdges(db, Entry(generatedKey, r.1.value));
    }
  }

  /** Nor does adding one through the corrected route. */
  lemma PostModelFixedKeepsEdges(db: Db, body: Body)
    requires NoOrphanEdges(db)
    ensures NoOrphanEdges(PostModelFixed(db, body).0)
  {
    var r := PostModelFixed(db, body);
    if r.1.Success? {
      AppendModelKeepsEdges(db, Entry(IntToString(r.1.value.id), r.1.value));
    }
  }

  /** A dataset status update keeps every key and id, so no edge is orphaned. */
  lemma PatchDatasetStatusKeepsEdges(db: Db, id: int, status: Json)
    requires NoOrphanEdges(db)
    ensures NoOrphanEdges(PatchDatasetStatus(db, id, status).0)
  {
    var db4 := PatchDatasetStatus(db, id, status).0;
    forall i | 0 <= i < |db4.relationships|
      ensures GetDataset(db4.datasets, db4.relationships[i].data.fields.datasetId).Some?
    {
      var did := db.relationships[i].data.fields.datasetId;
      if HasKey(db.datasets, IntToString(did)) {
        var j :| 0 <= j < |db.datasets| && db.datasets[j].key == IntToString(did);
        assert db4.datasets[j].key == IntToString(did);
      } else {
        var j :| 0 <= j < |db.datasets| && db.datasets[j].data.id == did;
        assert db4.datasets[j].data.id == did;
      }
    }
  }

  /** A relationship status update never changes which dataset or model an edge names. */
  lemma PatchRelationshipStatusKeepsEdges(db: Db, id: int, status: Json)
    requires NoOrphanEdges(db)
    ensures NoOrphanEdges(PatchRelationshipStatus(db, id, status).0)
  {
    var db5 := PatchRelationshipStatus(db, id, status).0;
    forall i | 0 <= i < |db5.relationships|
      ensures GetDataset(db5.datasets, db5.relationships[i].data.fields.datasetId).Some?
      ensures GetModel(db5.models, db5.relationships[i].data.fields.modelId).Some?
    {
      assert db5.relationships[i].data.fields == db.relationships[i].data.fields;
    }
  }

  // ---------------------------------------------------------------------------
  // Metadata validation

  function ValidateMetadataRoute(body: Body): (r: Response<bool>)
    ensures r.Success? <==> MetadataValid(body)
    ensures r.Success? ==> r == Success(200, true)
    ensures r.Failure? ==> r == Failure(400, "Invalid metadata")
  {
    match ValidateMetadata(body)
    case Err(_) => Failure(400, "Invalid metadata")
    case Ok(_) => Success(200, true)
  }

  // ---------------------------------------------------------------------------
  // CID existence check

  /** What the server knows of the content network: whether an API key is
      configured, whether the loaded client offers `getUploads`, and what
      `getUploads` answers (the CIDs of the account's files, or a thrown error). */
  datatype Lighthouse = Lighthouse(apiKeySet: bool, hasGetUploads: bool, uploads: Result<seq<string>, string>)

  /** GET /ipfs/check/:cid: 500 without an API key, before any lookup; without
      `getUploads` the answer is whether a stored dataset has the CID; otherwise
      whether the account's uploads list it. */
  function IpfsCheck(lh: Lighthouse, db: Db, cid: string): (r: Response<bool>)
    ensures !lh.apiKeySet ==> r == Failure(500, "Lighthouse API key not configured")
    ensures lh.apiKeySet && !lh.hasGetUploads ==>
              r.Success? && r.code == 200 && (r.value <==> exists i :: 0 <= i < |db.datasets| && db.datasets[i].data.fields.cid == cid)
    ensures lh.apiKeySet && lh.hasGetUploads && lh.uploads.Ok? ==>
              r.Success? && r.code == 200 && (r.value <==> cid in lh.uploads.value)
    ensures lh.apiKeySet && lh.hasGetUploads && lh.uploads.Err? ==>
              r == Failure(500, "Failed to check if CID exists in IPFS/Filecoin")
    ensures r.Failure? ==> r.code == 500
  {
    if !lh.apiKeySet then Failure(500, "Lighthouse API key not configured")
    else if !lh.hasGetUploads then
      var datasets := GetDatasets(db.datasets);
      Success(200, exists i :: 0 <= i < |datasets| && datasets[i].fields.cid == cid)
    else
      match lh.uploads
      case Err(_) => Failure(500, "Failed to check if CID exists in IPFS/Filecoin")
      case Ok(cids) => Success(200, cid in cids)
  }

  // ---------------------------------------------------------------------------
  // Upload

  /** A file of the multipart request: its original name, its byte size, and
      whether its temporary path is set and exists on disk. */
  datatype UploadFile = UploadFile(name: string, size: nat, pathExists: bool)

  /** What one call of the content network's `upload` does: throw, or answer
      with the `Hash` of the stored file (missing when the answer has none). */
  datatype SdkUpload = Threw | Returned(hash: Option<string>)

  /** The `metadata` form field: absent or empty, not valid JSON, or parsed. */
  datatype MetadataPart = NoMetadata | Unparsable | Parsed(fields: Body)

  datatype UploadReply = UploadReply(cid: string, size: string)

  /** The CID one file contributes: its `Hash` when its path exists and the
      upload answered with a non-empty one, else "". */
  function HashOf(f: UploadFile, upload: UploadFile -> SdkUpload): string {
    if !f.pathExists then ""
    else match upload(f)
      case Returned(Some(h)) => h
      case _ => ""
  }

  /** The CID the upload loop settles on: the first non-empty `HashOf`, in file order. */
  function FirstCid(files: seq<UploadFile>, upload: UploadFile -> SdkUpload): string {
    if |files| == 0 then ""
    else
      var c := FirstCid(files[..|files| - 1], upload);
      if c != "" then c else HashOf(files[|files| - 1], upload)
  }

  /** The byte count the upload loop adds up: every file's size, skipped files included. */
  function TotalSize(files: seq<UploadFile>): nat {
    if |files| == 0 then 0 else TotalSize(files[..|files| - 1]) + files[|files| - 1].size
  }

  /** File `i` is the first whose upload yields a CID. */
  ghost predicate FirstHashAt(files: seq<UploadFile>, upload: UploadFile -> SdkUpload, i: int) {
    && 0 <= i < |files|
    && HashOf(files[i], upload) != ""
    && forall j :: 0 <= j < i ==> HashOf(files[j], upload) == ""
  }

  /** The loop's CID is empty exactly when no file yields one, and otherwise it
      is the hash of the first file that does. */
  lemma {:induction false} FirstCidIsFirstHash(files: seq<UploadFile>, upload: UploadFile -> SdkUpload)
    ensures FirstCid(files, upload) == "" <==> forall i :: 0 <= i < |files| ==> HashOf(files[i], upload) == ""
    ensures FirstCid(files, upload) != "" ==>
              exists i :: FirstHashAt(files, upload, i) && FirstCid(files, upload) == HashOf(files[i], upload)
  {
    if |files| > 0 {
      var init := files[..|files| - 1];
      FirstCidIsFirstHash(init, upload);
      assert forall i :: 0 <= i < |init| ==> init[i] == files[i];
      if FirstCid(init, upload) != "" {
        var i :| FirstHashAt(init, upload, i) && FirstCid(init, upload) == HashOf(init[i], upload);
        assert FirstHashAt(files, upload, i);
      } else if HashOf(files[|files| - 1], upload) != "" {
        assert FirstHashAt(files, upload, |files| - 1);
      }
    }
  }

  /** The upload loop over all files: each file's size is added first, files
      without a path are skipped, a failed upload is skipped, and the first
      non-empty `Hash` becomes the CID. */
  method UploadLoop(files: seq<UploadFile>, upload: UploadFile -> SdkUpload) returns (cid: string, fileSize: nat)
    ensures cid == FirstCid(files, upload)
    ensures fileSize == TotalSize(files)
  {
    cid := "";
    fileSize := 0;
    var i := 0;
    while i < |files|
      invariant 0 <= i <= |files|
      invariant cid == FirstCid(files[..i], upload)
      invariant fileSize == TotalSize(files[..i])
    {
      var file := files[i];
      assert files[..i + 1][..i] == files[..i];
      fileSize := fileSize + file.size;
      if file.pathExists {
        var response := upload(file);
        if cid == "" && response.Returned? && response.hash.Some? && response.hash.value != "" {
          cid := response.hash.value;
        }
      }
      i := i + 1;
    }
    assert files[..|files|] == files;
  }

  lemma {:induction false} TotalSizeConcat(a: seq<UploadFile>, b: seq<UploadFile>)
    ensures TotalSize(a + b) == TotalSize(a) + TotalSize(b)
    decreases |b|
  {
    if |b| > 0 {
      assert (a + b)[..|a + b| - 1] == a + b[..|b| - 1];
      TotalSizeConcat(a, b[..|b| - 1]);
    } else {
      assert a + b == a;
    }
  }

  /** `metadata.x || fallback` for a field the metadata should hold as a string. */
  function StringOr(v: Json, fallback: string): string {
    if v.Str? && v.s != "" then v.s else fallback
  }

  /** The dataset row the upload handler creates from parsed metadata. */
  function UploadedDataset(md: Body, bodyName: Json, cid: string, size: string, fileCount: nat): (ins: InsertDataset)
    ensures ins.fields.cid == cid && ins.fields.size == size
    ensures ins.fields.filesTotalCount == Some(fileCount as int)
    ensures ins.status == Some("verified") && ins.fields.userId == Some(1)
    ensures ins.fields.name != ""
    ensures IsNonEmptyString(Field(md, "name")) ==> ins.fields.name == Field(md, "name").s
    ensures !IsNonEmptyString(Field(md, "name")) && IsNonEmptyString(bodyName) ==> ins.fields.name == bodyName.s
    ensures !IsNonEmptyString(Field(md, "name")) && !IsNonEmptyString(bodyName) ==> ins.fields.name == "Unnamed Dataset"
    ensures IsNonEmptyString(Field(md, "domain")) ==> ins.fields.domain == Field(md, "domain").s
    ensures !IsNonEmptyString(Field(md, "domain")) ==> ins.fields.domain == "General"
    ensures IsNonEmptyString(Field(md, "format")) ==> ins.fields.format == Field(md, "format").s
    ensures !IsNonEmptyString(Field(md, "format")) ==> ins.fields.format == "Unknown"
    ensures IsNonEmptyString(Field(md, "license")) ==> ins.fields.license == Field(md, "license").s
    ensures !IsNonEmptyString(Field(md, "license")) ==> ins.fields.license == "Unknown"
    ensures IsNonEmptyString(Field(md, "accessControl")) ==> ins.fields.accessControl == Some(Field(md, "accessControl").s)
    ensures !IsNonEmptyString(Field(md, "accessControl")) ==> ins.fields.accessControl == Some("public")
    ensures IsNonEmptyString(Field(md, "description")) ==> ins.fields.description == Some(Field(md, "description").s)
    ensures !IsNonEmptyString(Field(md, "description")) ==> ins.fields.description == Some("")
    ensures IsStringList(Field(md, "tags")) ==> ins.fields.tags == AsOptStrings(Field(md, "tags"))
    ensures !IsStringList(Field(md, "tags")) ==> ins.fields.tags == Some([])
  {
    InsertDataset(
      DatasetFields(
        StringOr(Field(md, "name"), StringOr(bodyName, "Unnamed Dataset")),
        cid,
        size,
        StringOr(Field(md, "domain"), "General"),
        StringOr(Field(md, "format"), "Unknown"),
        StringOr(Field(md, "license"), "Unknown"),
        Some(StringOr(Field(md, "accessControl"), "public")),
        Some(StringOr(Field(md, "description"), "")),
        Some(if IsStringList(Field(md, "tags")) then Strings(Field(md, "tags").items) else []),
        Some(fileCount as int),
        Some(1)),
      Some("verified"))
  }

  /** The files the handler uploads: the request's files, then its own
      `metadata.json` when metadata was sent. */
  function AllFiles(files: seq<UploadFile>, metadata: MetadataPart, metadataSize: nat): (all: seq<UploadFile>)
    ensures |all| >= |files| && all[..|files|] == files
    ensures metadata.Parsed? ==> |all| == |files| + 1 && all[|files|] == UploadFile("metadata.json", metadataSize, true)
    ensures !metadata.Parsed? ==> all == files
  {
    files + (if metadata.Parsed? then [UploadFile("metadata.json", metadataSize, true)] else [])
  }

  /** POST /ipfs/upload. `formatSize` stands for the human-readable size
      formatter, `metadataSize` for the size of the written `metadata.json`, and
      `dbFails` for a store error while recording the dataset, which the
      handler logs and ignores. */
  function IpfsUpload(
    db: Db, files: seq<UploadFile>, metadata: MetadataPart, bodyName: Json,
    upload: UploadFile -> SdkUpload, formatSize: nat -> string, metadataSize: nat, dbFails: bool)
    : (r: (Db, Response<UploadReply>))
    ensures |files| == 0 ==> r == (db, Failure(400, "No files uploaded"))
    ensures |files| > 0 && metadata.Unparsable? ==> r == (db, Failure(400, "Invalid metadata JSON"))
    ensures r.1.Failure? ==> r.0 == db && r.1.code in {400, 500}
    ensures r.1.Success? <==>
              (|files| > 0 && !metadata.Unparsable? && FirstCid(AllFiles(files, metadata, metadataSize), upload) != "")
    ensures r.1.Success? ==>
              && r.1.code == 200
              && r.1.value.cid == FirstCid(AllFiles(files, metadata, metadataSize), upload)
              && r.1.value.size == formatSize(TotalSize(AllFiles(files, metadata, metadataSize)))
    ensures r.0.users == db.users && r.0.models == db.models && r.0.relationships == db.relationships
    ensures !(r.1.Success? && metadata.Parsed? && !dbFails) ==> r.0 == db
  {
    if |files| == 0 then (db, Failure(400, "No files uploaded"))
    else if metadata.Unparsable? then (db, Failure(400, "Invalid metadata JSON"))
    else
      var all := AllFiles(files, metadata, metadataSize);
      var cid := FirstCid(all, upload);
      var total := TotalSize(all);
      if cid == "" then (db, Failure(500, "Failed to get CID from Lighthouse"))
      else
        var db2 :=
          if metadata.Parsed? && !dbFails then
            db.(datasets := CreateDataset(db.datasets, UploadedDataset(metadata.fields, bodyName, cid, formatSize(total), |all|)).0)
          else db;
        (db2, Success(200, UploadReply(cid, formatSize(total))))
  }

  /** The upload succeeds exactly when some file, the handler's own
      `metadata.json` included, yields a CID, and the CID returned is that of
      the first such file in order. */
  lemma UploadCidIsFirstUploaded(
    db: Db, files: seq<UploadFile>, metadata: MetadataPart, bodyName: Json,
    upload: UploadFile -> SdkUpload, formatSize: nat -> string, metadataSize: nat, dbFails: bool)
    requires |files| > 0 && !metadata.Unparsable?
    ensures var all := AllFiles(files, metadata, metadataSize);
            var r := IpfsUpload(db, files, metadata, bodyName, upload, formatSize, metadataSize, dbFails);
            && (r.1.Success? <==> exists i :: 0 <= i < |all| && HashOf(all[i], upload) != "")
            && (r.1.Success? ==> exists i :: FirstHashAt(all, upload, i) && r.1.value.cid == HashOf(all[i], upload))
            && (r.1.Failure? ==> r.1 == Failure(500, "Failed to get CID from Lighthouse"))
  {
    FirstCidIsFirstHash(AllFiles(files, metadata, metadataSize), upload);
  }

  /** The size the handler reports counts every file the request carried,
      uploaded or skipped, plus its own `metadata.json`. */
  lemma AllFilesSize(files: seq<UploadFile>, metadata: MetadataPart, metadataSize: nat)
    ensures TotalSize(AllFiles(files, metadata, metadataSize)) == TotalSize(files) + (if metadata.Parsed? then metadataSize else 0)
  {
    var all := AllFiles(files, metadata, metadataSize);
    var extra := all[|files|..];
    assert all == files + extra;
    TotalSizeConcat(files, extra);
    if metadata.Parsed? {
      assert extra == [UploadFile("metadata.json", metadataSize, true)];
      assert extra[..0] == [];
    } else {
      assert extra == [];
    }
  }

  /** With metadata, a successful upload records one new dataset (unless the
      store fails) carrying the CID, status "verified" and a file count that
      includes `metadata.json`. */
  lemma UploadRecordsDataset(
    db: Db, files: seq<UploadFile>, md: Body, bodyName: Json,
    upload: UploadFile -> SdkUpload, formatSize: nat -> string, metadataSize: nat)
    ensures var r := IpfsUpload(db, files, Parsed(md), bodyName, upload, formatSize, metadataSize, false);
            r.1.Success? ==>
              && |r.0.datasets| == |db.datasets| + 1 && r.0.datasets[..|db.datasets|] == db.datasets
              && r.0.datasets[|db.datasets|].data.fields.cid == r.1.value.cid
              && r.0.datasets[|db.datasets|].data.fields.filesTotalCount == Some(|files| + 1)
              && r.0.datasets[|db.datasets|].data.status == "verified"
  {
    var r := IpfsUpload(db, files, Parsed(md), bodyName, upload, formatSize, metadataSize, false);
    if r.1.Success? {
      var all := AllFiles(files, Parsed(md), metadataSize);
      var ins := UploadedDataset(md, bodyName, r.1.value.cid, r.1.value.size, |all|);
      var (c, d) := CreateDataset(db.datasets, ins);
      assert r.0.datasets == c;
      assert (db.datasets + [Entry(IntToString(d.id), d)])[..|db.datasets|] == db.datasets;
    }
  }
}

=== FILE: schema.dfy ===
/** The shared entity schema: the four tables (users, datasets, models and
    dataset-model relationships), the insert payloads derived from them, and the
    request-body validators built from those tables and from the upload
    metadata schema. */
module Schema {
  import opened Common

  // ---------------------------------------------------------------------------
  // Request bodies

  /** A JSON value as read from a request body. `Absent` is a key the body does
      not have; numbers are integers. */
  datatype Json =
    | Absent
    | Null
    | Bool(b: bool)
    | Num(n: int)
    | Str(s: string)
    | Arr(items: seq<Json>)
    | Object

  type Body = map<string, Json>

  function Field(body: Body, key: string): Json {
    if key in body then body[key] else Absent
  }

  /** JavaScript truthiness (`!v` is false); objects and arrays are always truthy. */
  predicate Truthy(v: Json) {
    match v
    case Absent => false
    case Null => false
    case Bool(b) => b
    case Num(n) => n != 0
    case Str(s) => s != ""
    case _ => true
  }

  // ---------------------------------------------------------------------------
  // Entities

  datatype User = User(id: int, username: string, password: string)

  datatype InsertUser = InsertUser(username: string, password: string)

  /** The dataset columns a caller supplies; `id`, `uploadedAt` and `status` are not among them. */
  datatype DatasetFields = DatasetFields(
    name: string,
    cid: string,
    size: string,
    domain: string,
    format: string,
    license: string,
    accessControl: Option<string>,
    description: Option<string>,
    tags: Option<seq<string>>,
    filesTotalCount: Option<int>,
    userId: Option<int>)

  /** The dataset insert payload: every column but `id` and `uploadedAt`. */
  datatype InsertDataset = InsertDataset(fields: DatasetFields, status: Option<string>)

  datatype Dataset = Dataset(id: int, fields: DatasetFields, status: string)

  /** The model insert payload: every column but `id` and `createdAt`. */
  datatype InsertModel = InsertModel(
    name: string,
    cid: string,
    architecture: Option<string>,
    description: Option<string>,
    userId: Option<int>)

  datatype Model = Model(id: int, fields: InsertModel)

  /** The relationship columns a caller supplies besides `status`. */
  datatype RelationshipFields = RelationshipFields(
    datasetId: int,
    modelId: int,
    licensingInfo: string,
    processingCid: Option<string>)

  /** The relationship insert payload: every column but `id` and `usageDate`. */
  datatype InsertRelationship = InsertRelationship(fields: RelationshipFields, status: Option<string>)

  datatype Relationship = Relationship(id: int, fields: RelationshipFields, status: string)

  /** Upload metadata as the upload form and the metadata endpoint accept it. */
  datatype DatasetMetadata = DatasetMetadata(
    name: string,
    domain: string,
    format: string,
    license: string,
    accessControl: string,
    description: Option<string>,
    tags: Option<seq<string>>)

  // ---------------------------------------------------------------------------
  // Field shapes accepted by the generated schemas

  predicate IsString(v: Json) { v.Str? }

  predicate IsNonEmptyString(v: Json) { v.Str? && |v.s| >= 1 }

  predicate IsInt(v: Json) { v.Num? }

  predicate IsStringList(v: Json) {
    v.Arr? && forall i :: 0 <= i < |v.items| ==> v.items[i].Str?
  }

  /** A `.optional()` field: missing, or present with the right type (`null` is refused). */
  predicate IsOptional(v: Json, shape: Json -> bool) { v.Absent? || shape(v) }

  /** A nullable column's field: missing, `null`, or present with the right type. */
  predicate IsNullable(v: Json, shape: Json -> bool) { v.Absent? || v.Null? || shape(v) }

  function Strings(items: seq<Json>): (r: seq<string>)
    requires forall i :: 0 <= i < |items| ==> items[i].Str?
    ensures |r| == |items|
    ensures forall i :: 0 <= i < |r| ==> items[i] == Str(r[i])
  {
    if |items| == 0 then [] else [items[0].s] + Strings(items[1..])
  }

  function AsOptString(v: Json): Option<string> {
    if v.Str? then Some(v.s) else None
  }

  function AsOptInt(v: Json): Option<int> {
    if v.Num? then Some(v.n) else None
  }

  function AsOptStrings(v: Json): Option<seq<string>> {
    if IsStringList(v) then Some(Strings(v.items)) else None
  }

  /** The name of `key` when its value does not have the required shape. */
  function Check(ok: bool, key: string): (r: seq<string>)
    ensures |r| == 0 <==> ok
    ensures forall i :: 0 <= i < |r| ==> r[i] == key
  {
    if ok then [] else [key]
  }

  // ---------------------------------------------------------------------------
  // Insert validators (object schemas drop keys they do not declare)

  const DatasetKeys: set<string> :=
    {"name", "cid", "size", "domain", "format", "license", "accessControl",
     "description", "tags", "filesTotalCount", "status", "userId"}

  ghost predicate DatasetBodyValid(body: Body) {
    && IsString(Field(body, "name")) && IsString(Field(body, "cid"))
    && IsString(Field(body, "size")) && IsString(Field(body, "domain"))
    && IsString(Field(body, "format")) && IsString(Field(body, "license"))
    && IsOptional(Field(body, "accessControl"), IsString)
    && IsNullable(Field(body, "description"), IsString)
    && IsNullable(Field(body, "tags"), IsStringList)
    && IsNullable(Field(body, "filesTotalCount"), IsInt)
    && IsOptional(Field(body, "status"), IsString)
    && IsNullable(Field(body, "userId"), IsInt)
  }

  /** The required text columns of a dataset that are not strings. */
  function DatasetRequiredErrors(body: Body): (r: seq<string>)
    ensures |r| == 0 <==>
              (&& IsString(Field(body, "name")) && IsString(Field(body, "cid"))
               && IsString(Field(body, "size")) && IsString(Field(body, "domain"))
               && IsString(Field(body, "format")) && IsString(Field(body, "license")))
    ensures forall i :: 0 <= i < |r| ==> r[i] in DatasetKeys
  {
    Check(IsString(Field(body, "name")), "name")
    + Check(IsString(Field(body, "cid")), "cid")
    + Check(IsString(Field(body, "size")), "size")
    + Check(IsString(Field(body, "domain")), "domain")
    + Check(IsString(Field(body, "format")), "format")
    + Check(IsString(Field(body, "license")), "license")
  }

  /** The optional and nullable columns of a dataset that have the wrong shape. */
  function DatasetOptionalErrors(body: Body): (r: seq<string>)
    ensures |r| == 0 <==>
              (&& IsOptional(Field(body, "accessControl"), IsString)
               && IsNullable(Field(body, "description"), IsString)
               && IsNullable(Field(body, "tags"), IsStringList)
               && IsNullable(Field(body, "filesTotalCount"), IsInt)
               && IsOptional(Field(body, "status"), IsString)
               && IsNullable(Field(body, "userId"), IsInt))
    ensures forall i :: 0 <= i < |r| ==> r[i] in DatasetKeys
  {
    Check(IsOptional(Field(body, "accessControl"), IsString), "accessControl")
    + Check(IsNullable(Field(body, "description"), IsString), "description")
    + Check(IsNullable(Field(body, "tags"), IsStringList), "tags")
    + Check(IsNullable(Field(body, "filesTotalCount"), IsInt), "filesTotalCount")
    + Check(IsOptional(Field(body, "status"), IsString), "status")
    + Check(IsNullable(Field(body, "userId"), IsInt), "userId")
  }

  /** The dataset insert schema: the six text columns are required strings, the
      columns with a default or without `notNull` may be left out, `id` and
      `uploadedAt` are not part of it. */
  function ValidateInsertDataset(body: Body): (r: Result<InsertDataset, seq<string>>)
    ensures r.Ok? <==> DatasetBodyValid(body)
    ensures r.Err? ==> |r.error| > 0 && forall i :: 0 <= i < |r.error| ==> r.error[i] in DatasetKeys
    ensures r.Ok? ==> Field(body, "name") == Str(r.value.fields.name)
    ensures r.Ok? ==> Field(body, "cid") == Str(r.value.fields.cid)
    ensures r.Ok? ==> r.value.status == AsOptString(Field(body, "status"))
    ensures r.Ok? ==> r.value.fields.userId == AsOptInt(Field(body, "userId"))
    ensures r.Ok? ==>
              && Field(body, "size") == Str(r.value.fields.size)
              && Field(body, "domain") == Str(r.value.fields.domain)
              && Field(body, "format") == Str(r.value.fields.format)
              && Field(body, "license") == Str(r.value.fields.license)
    ensures r.Ok? ==>
              && r.value.fields.accessControl == AsOptString(Field(body, "accessControl"))
              && r.value.fields.description == AsOptString(Field(body, "description"))
              && r.value.fields.tags == AsOptStrings(Field(body, "tags"))
              && r.value.fields.filesTotalCount == AsOptInt(Field(body, "filesTotalCount"))
  {
    var errors := DatasetRequiredErrors(body) + DatasetOptionalErrors(body);
    if errors != [] then Err(errors)
    else
      Ok(InsertDataset(
        DatasetFields(
          Field(body, "name").s, Field(body, "cid").s, Field(body, "size").s,
          Field(body, "domain").s, Field(body, "format").s, Field(body, "license").s,
          AsOptString(Field(body, "accessControl")),
          AsOptString(Field(body, "description")),
          AsOptStrings(Field(body, "tags")),
          AsOptInt(Field(body, "filesTotalCount")),
          AsOptInt(Field(body, "userId"))),
        AsOptString(Field(body, "status"))))
  }

  const ModelKeys: set<string> := {"name", "cid", "architecture", "description", "userId"}

  ghost predicate ModelBodyValid(body: Body) {
    && IsString(Field(body, "name")) && IsString(Field(body, "cid"))
    && IsNullable(Field(body, "architecture"), IsString)
    && IsNullable(Field(body, "description"), IsString)
    && IsNullable(Field(body, "userId"), IsInt)
  }

  /** The model insert schema: name and cid are required strings, the nullable
      columns may be left out, `id` and `createdAt` are not part of it. */
  function ValidateInsertModel(body: Body): (r: Result<InsertModel, seq<string>>)
    ensures r.Ok? <==> ModelBodyValid(body)
    ensures r.Err? ==> |r.error| > 0 && forall i :: 0 <= i < |r.error| ==> r.error[i] in ModelKeys
    ensures r.Ok? ==> Field(body, "name") == Str(r.value.name) && Field(body, "cid") == Str(r.value.cid)
    ensures r.Ok? ==>
              && r.value.architecture == AsOptString(Field(body, "architecture"))
              && r.value.description == AsOptString(Field(body, "description"))
              && r.value.userId == AsOptInt(Field(body, "userId"))
  {
    var errors :=
      Check(IsString(Field(body, "name")), "name")
      + Check(IsString(Field(body, "cid")), "cid")
      + Check(IsNullable(Field(body, "architecture"), IsString), "architecture")
      + Check(IsNullable(Field(body, "description"), IsString), "description")
      + Check(IsNullable(Field(body, "userId"), IsInt), "userId");
    if errors != [] then Err(errors)
    else
      Ok(InsertModel(
        Field(body, "name").s, Field(body, "cid").s,
        AsOptString(Field(body, "architecture")),
        AsOptString(Field(body, "description")),
        AsOptInt(Field(body, "userId"))))
  }

  const RelationshipKeys: set<string> :=
    {"datasetId", "modelId", "status", "licensingInfo", "processingCid"}

  ghost predicate RelationshipBodyValid(body: Body) {
    && IsInt(Field(body, "datasetId")) && IsInt(Field(body, "modelId"))
    && IsOptional(Field(body, "status"), IsString)
    && IsString(Field(body, "licensingInfo"))
    && IsNullable(Field(body, "processingCid"), IsString)
  }

  /** The relationship insert schema: `datasetId`, `modelId` and `licensingInfo`
      are required, `status` and `processingCid` may be left out, `id` and
      `usageDate` are not part of it. */
  function ValidateInsertRelationship(body: Body): (r: Result<InsertRelationship, seq<string>>)
    ensures r.Ok? <==> RelationshipBodyValid(body)
    ensures r.Err? ==> |r.error| > 0 && forall i :: 0 <= i < |r.error| ==> r.error[i] in RelationshipKeys
    ensures r.Ok? ==> Field(body, "datasetId") == Num(r.value.fields.datasetId)
    ensures r.Ok? ==> Field(body, "modelId") == Num(r.value.fields.modelId)
    ensures r.Ok? ==> Field(body, "licensingInfo") == Str(r.value.fields.licensingInfo)
    ensures r.Ok? ==> r.value.fields.processingCid == AsOptString(Field(body, "processingCid"))
  {
    var errors :=
      Check(IsInt(Field(body, "datasetId")), "datasetId")
      + Check(IsInt(Field(body, "modelId")), "modelId")
      + Check(IsOptional(Field(body, "status"), IsString), "status")
      + Check(IsString(Field(body, "licensingInfo")), "licensingInfo")
      + Check(IsNullable(Field(body, "processingCid"), IsString), "processingCid");
    if errors != [] then Err(errors)
    else
      Ok(InsertRelationship(
        RelationshipFields(
          Field(body, "datasetId").n, Field(body, "modelId").n,
          Field(body, "licensingInfo").s, AsOptString(Field(body, "processingCid"))),
        AsOptString(Field(body, "status"))))
  }

  /** Keys a schema does not declare, such as a client-chosen `id`, cannot
      change what the relationship validator produces. */
  lemma RelationshipIgnoresUndeclaredKeys(body: Body, key: string, v: Json)
    requires key !in RelationshipKeys
    ensures ValidateInsertRelationship(body[key := v]) == ValidateInsertRelationship(body)
  {
    forall k | k in RelationshipKeys ensures Field(body[key := v], k) == Field(body, k) {}
  }

  /** The same for datasets: an `id` or `uploadedAt` in the body is dropped. */
  lemma DatasetIgnoresUndeclaredKeys(body: Body, key: string, v: Json)
    requires key !in DatasetKeys
    ensures ValidateInsertDataset(body[key := v]) == ValidateInsertDataset(body)
  {
    forall k | k in DatasetKeys ensures Field(body[key := v], k) == Field(body, k) {}
  }

  /** The same for models: an `id` or `createdAt` in the body is dropped. */
  lemma ModelIgnoresUndeclaredKeys(body: Body, key: string, v: Json)
    requires key !in ModelKeys
    ensures ValidateInsertModel(body[key := v]) == ValidateInsertModel(body)
  {
    forall k | k in ModelKeys ensures Field(body[key := v], k) == Field(body, k) {}
  }

  /** A nullable column as JSON: the value, or `null` when there is none. */
  function NullableStr(o: Option<string>): (v: Json)
    ensures AsOptString(v) == o && IsNullable(v, IsString)
  {
    if o.Some? then Str(o.value) else Null
  }

  function NullableNum(o: Option<int>): (v: Json)
    ensures AsOptInt(v) == o && IsNullable(v, IsInt)
  {
    if o.Some? then Num(o.value) else Null
  }

  /** A model payload written as a request body, every column present. */
  function ModelBody(m: InsertModel): Body {
    map["name" := Str(m.name), "cid" := Str(m.cid), "architecture" := NullableStr(m.architecture),
        "description" := NullableStr(m.description), "userId" := NullableNum(m.userId)]
  }

  /** Every model payload, written as a body, passes the schema and reads back unchanged. */
  lemma ModelRoundTrip(m: InsertModel)
    ensures ValidateInsertModel(ModelBody(m)) == Ok(m)
  {
    var body := ModelBody(m);
    assert Field(body, "name") == Str(m.name) && Field(body, "cid") == Str(m.cid);
    assert Field(body, "architecture") == NullableStr(m.architecture);
    assert Field(body, "description") == NullableStr(m.description);
    assert Field(body, "userId") == NullableNum(m.userId);
  }

  /** An optional field as JSON: the value, or left out (`undefined`). */
  function OptionalStr(o: Option<string>): (v: Json)
    ensures AsOptString(v) == o && IsOptional(v, IsString)
  {
    if o.Some? then Str(o.value) else Absent
  }

  function NullableStrings(o: Option<seq<string>>): (v: Json)
    ensures AsOptStrings(v) == o && IsNullable(v, IsStringList)
  {
    if o.Some? then StringsStrItems(o.value); Arr(StrItems(o.value)) else Null
  }

  /** A dataset payload written as a request body. */
  function DatasetInsertBody(d: InsertDataset): Body {
    map["name" := Str(d.fields.name), "cid" := Str(d.fields.cid), "size" := Str(d.fields.size),
        "domain" := Str(d.fields.domain), "format" := Str(d.fields.format), "license" := Str(d.fields.license),
        "accessControl" := OptionalStr(d.fields.accessControl),
        "description" := NullableStr(d.fields.description),
        "tags" := NullableStrings(d.fields.tags),
        "filesTotalCount" := NullableNum(d.fields.filesTotalCount),
        "status" := OptionalStr(d.status),
        "userId" := NullableNum(d.fields.userId)]
  }

  /** What the required keys of a written dataset payload hold. */
  lemma DatasetInsertBodyRequired(d: InsertDataset)
    ensures var body := DatasetInsertBody(d);
            && Field(body, "name") == Str(d.fields.name) && Field(body, "cid") == Str(d.fields.cid)
            && Field(body, "size") == Str(d.fields.size) && Field(body, "domain") == Str(d.fields.domain)
            && Field(body, "format") == Str(d.fields.format) && Field(body, "license") == Str(d.fields.license)
  {
  }

  /** What the optional and nullable keys of a written dataset payload hold. */
  lemma DatasetInsertBodyOptional(d: InsertDataset)
    ensures var body := DatasetInsertBody(d);
            && Field(body, "accessControl") == OptionalStr(d.fields.accessControl)
            && Field(body, "description") == NullableStr(d.fields.description)
            && Field(body, "tags") == NullableStrings(d.fields.tags)
            && Field(body, "filesTotalCount") == NullableNum(d.fields.filesTotalCount)
            && Field(body, "status") == OptionalStr(d.status)
            && Field(body, "userId") == NullableNum(d.fields.userId)
  {
  }

  /** Every dataset payload, written as a body, passes the schema and reads back unchanged. */
  lemma DatasetRoundTrip(d: InsertDataset)
    ensures ValidateInsertDataset(DatasetInsertBody(d)) == Ok(d)
  {
    DatasetInsertBodyRequired(d);
    DatasetInsertBodyOptional(d);
  }

  // ---------------------------------------------------------------------------
  // Upload metadata

  const MetadataKeys: set<string> :=
    {"name", "domain", "format", "license", "accessControl", "description", "tags"}

  ghost predicate MetadataValid(body: Body) {
    && IsNonEmptyString(Field(body, "name"))
    && IsNonEmptyString(Field(body, "domain"))
    && IsNonEmptyString(Field(body, "format"))
    && IsNonEmptyString(Field(body, "license"))
    && IsNonEmptyString(Field(body, "accessControl"))
    && IsOptional(Field(body, "description"), IsString)
    && IsOptional(Field(body, "tags"), IsStringList)
  }

  /** The required metadata fields that are not non-empty strings. */
  function MetadataRequiredErrors(body: Body): (r: seq<string>)
    ensures |r| == 0 <==>
              (&& IsNonEmptyString(Field(body, "name")) && IsNonEmptyString(Field(body, "domain"))
               && IsNonEmptyString(Field(body, "format")) && IsNonEmptyString(Field(body, "license"))
               && IsNonEmptyString(Field(body, "accessControl")))
    ensures forall i :: 0 <= i < |r| ==> r[i] in MetadataKeys
  {
    Check(IsNonEmptyString(Field(body, "name")), "name")
    + Check(IsNonEmptyString(Field(body, "domain")), "domain")
    + Check(IsNonEmptyString(Field(body, "format")), "format")
    + Check(IsNonEmptyString(Field(body, "license")), "license")
    + Check(IsNonEmptyString(Field(body, "accessControl")), "accessControl")
  }

  /** The metadata schema: five required non-empty strings, an optional string
      description and an optional list of string tags. */
  function ValidateMetadata(body: Body): (r: Result<DatasetMetadata, seq<string>>)
    ensures r.Ok? <==> MetadataValid(body)
    ensures r.Err? ==> |r.error| > 0 && forall i :: 0 <= i < |r.error| ==> r.error[i] in MetadataKeys
    ensures r.Ok? ==> r.value.name != "" && r.value.domain != "" && r.value.format != ""
                      && r.value.license != "" && r.value.accessControl != ""
    ensures r.Ok? ==> Field(body, "name") == Str(r.value.name) && Field(body, "domain") == Str(r.value.domain)
    ensures r.Ok? ==> Field(body, "format") == Str(r.value.format) && Field(body, "license") == Str(r.value.license)
    ensures r.Ok? ==> Field(body, "accessControl") == Str(r.value.accessControl)
    ensures r.Ok? ==> r.value.description == AsOptString(Field(body, "description"))
    ensures r.Ok? ==> r.value.tags == AsOptStrings(Field(body, "tags"))
    ensures r.Ok? && r.value.tags.Some? ==> Field(body, "tags").Arr?
  {
    var errors := MetadataRequiredErrors(body)
      + Check(IsOptional(Field(body, "description"), IsString), "description")
      + Check(IsOptional(Field(body, "tags"), IsStringList), "tags");
    if errors != [] then Err(errors)
    else
      Ok(DatasetMetadata(
        Field(body, "name").s, Field(body, "domain").s, Field(body, "format").s,
        Field(body, "license").s, Field(body, "accessControl").s,
        AsOptString(Field(body, "description")),
        AsOptStrings(Field(body, "tags"))))
  }

  /** The same for metadata: a key the metadata schema does not declare is dropped. */
  lemma MetadataIgnoresUndeclaredKeys(body: Body, key: string, v: Json)
    requires key !in MetadataKeys
    ensures ValidateMetadata(body[key := v]) == ValidateMetadata(body)
  {
    forall k | k in MetadataKeys ensures Field(body[key := v], k) == Field(body, k) {}
  }

  /** Each string as a JSON string, as `JSON.stringify` writes a string list. */
  function StrItems(items: seq<string>): (r: seq<Json>)
    ensures |r| == |items|
    ensures forall i :: 0 <= i < |items| ==> r[i] == Str(items[i])
  {
    if |items| == 0 then [] else [Str(items[0])] + StrItems(items[1..])
  }

  /** Writing a string list and reading it back gives the same list. */
  lemma StringsStrItems(items: seq<string>)
    ensures IsStringList(Arr(StrItems(items)))
    ensures Strings(StrItems(items)) == items
  {
    var r := Strings(StrItems(items));
    assert forall i :: 0 <= i < |items| ==> Str(r[i]) == Str(items[i]);
  }

  /** Metadata as the client serialises it: undefined optional fields are left out. */
  function MetadataBody(m: DatasetMetadata): Body {
    map[
      "name" := Str(m.name), "domain" := Str(m.domain), "format" := Str(m.format),
      "license" := Str(m.license), "accessControl" := Str(m.accessControl),
      "description" := (if m.description.Some? then Str(m.description.value) else Absent),
      "tags" := (if m.tags.Some? then Arr(StrItems(m.tags.value)) else Absent)]
  }

  /** Serialised metadata passes the validator exactly when its five required
      fields are not empty, and then the validator gives back the same metadata. */
  lemma MetadataRoundTrip(m: DatasetMetadata)
    ensures ValidateMetadata(MetadataBody(m)).Ok? <==>
              m.name != "" && m.domain != "" && m.format != "" && m.license != "" && m.accessControl != ""
    ensures ValidateMetadata(MetadataBody(m)).Ok? ==> ValidateMetadata(MetadataBody(m)).value == m
  {
    if m.tags.Some? {
      StringsStrItems(m.tags.value);
    }
  }
}

=== FILE: store.dfy ===
/** The record store: four document collections (users, datasets, models,
    relationships) with max+1 id allocation, create, status update and the
    foreign-key queries.

    A collection is the sequence of its documents in creation order (a create
    appends; Firestore's own listing by document ID is not modelled); each
    document has a key (its name in the collection) and its
    data, which always carries the `id` field every writer in this code stores.
    Key generation for `addDoc` is the caller's `generatedKey`. */
module Store {
  import opened Common
  import opened Text
  import opened Schema

  datatype Entry<D> = Entry(key: string, data: D)

  type Collection<D> = seq<Entry<D>>

  datatype Db = Db(
    users: Collection<User>,
    datasets: Collection<Dataset>,
    models: Collection<Model>,
    relationships: Collection<Relationship>)

  predicate KeysUnique<D>(c: Collection<D>) {
    forall i, j :: 0 <= i < j < |c| ==> c[i].key != c[j].key
  }

  predicate HasKey<D>(c: Collection<D>, key: string) {
    exists i :: 0 <= i < |c| && c[i].key == key
  }

  /** The data of the first document named `key` (`getDoc(doc(collection, key))`). */
  function Lookup<D>(c: Collection<D>, key: string): (r: Option<D>)
    ensures r.Some? <==> HasKey(c, key)
    ensures r.Some? ==> exists i :: 0 <= i < |c| && c[i].key == key && c[i].data == r.value
    ensures KeysUnique(c) ==> forall i :: 0 <= i < |c| && c[i].key == key ==> r == Some(c[i].data)
  {
    if |c| == 0 then None
    else if c[0].key == key then Some(c[0].data)
    else
      var r := Lookup(c[1..], key);
      assert HasKey(c, key) ==> HasKey(c[1..], key) by {
        if HasKey(c, key) {
          var i :| 0 <= i < |c| && c[i].key == key;
          assert c[1..][i - 1].key == key;
        }
      }
      r
  }

  /** A document appended under a new name is what a lookup of that name finds. */
  lemma {:induction false} LookupAppendFresh<D>(c: Collection<D>, key: string, d: D)
    requires !HasKey(c, key)
    ensures Lookup(c + [Entry(key, d)], key) == Some(d)
  {
    var c2 := c + [Entry(key, d)];
    if |c| > 0 {
      assert c[0].key != key;
      assert c2[1..] == c[1..] + [Entry(key, d)];
      assert !HasKey(c[1..], key) by {
        forall i | 0 <= i < |c[1..]| ensures c[1..][i].key != key {
          assert c[1..][i] == c[i + 1];
        }
      }
      LookupAppendFresh(c[1..], key, d);
    }
  }

  function Records<D>(c: Collection<D>): (r: seq<D>)
    ensures |r| == |c|
    ensures forall i :: 0 <= i < |c| ==> r[i] == c[i].data
  {
    if |c| == 0 then [] else [c[0].data] + Records(c[1..])
  }

  // ---------------------------------------------------------------------------
  // Id allocation

  /** `parseInt(key) || 0`: the number a key starts with, 0 when it starts with none. */
  function KeyNumber(key: string): (n: int)
    ensures |key| > 0 && '1' <= key[0] <= '9' ==> n > 0
    ensures n < 0 ==> |key| > 0 && key[0] == '-'
  {
    match ParseInt(key)
    case None => 0
    case Some(v) => v
  }

  function MaxKeyNumber<D>(c: Collection<D>): (m: int)
    requires |c| > 0
    ensures forall i :: 0 <= i < |c| ==> KeyNumber(c[i].key) <= m
    ensures exists i :: 0 <= i < |c| && KeyNumber(c[i].key) == m
  {
    if |c| == 1 then KeyNumber(c[0].key)
    else
      var m := MaxKeyNumber(c[1..]);
      assert forall i :: 1 <= i < |c| ==> KeyNumber(c[i].key) <= m by {
        forall i | 1 <= i < |c| ensures KeyNumber(c[i].key) <= m {
          assert c[i] == c[1..][i - 1];
        }
      }
      ghost var j :| 0 <= j < |c| - 1 && KeyNumber(c[1..][j].key) == m;
      assert c[j + 1] == c[1..][j];
      if KeyNumber(c[0].key) > m then KeyNumber(c[0].key) else m
  }

  /** The id a create assigns: one more than the largest number among the
      collection's keys (non-numeric keys count as 0), or 1 for an empty collection. */
  function NextId<D>(c: Collection<D>): (id: int)
    ensures |c| == 0 ==> id == 1
    ensures forall i :: 0 <= i < |c| ==> KeyNumber(c[i].key) < id
    ensures |c| > 0 ==> exists i :: 0 <= i < |c| && KeyNumber(c[i].key) == id - 1
    ensures (forall i :: 0 <= i < |c| ==> |c[i].key| == 0 || c[i].key[0] != '-') ==> id >= 1
  {
    if |c| == 0 then 1 else MaxKeyNumber(c) + 1
  }

  /** No document is yet named after the id a create allocates, because that
      name would parse to the id itself. */
  lemma NextIdKeyFree<D>(c: Collection<D>)
    ensures !HasKey(c, IntToString(NextId(c)))
  {
    var id := NextId(c);
    ParseIntToString(id);
    assert KeyNumber(IntToString(id)) == id;
    assert forall i :: 0 <= i < |c| ==> KeyNumber(c[i].key) != KeyNumber(IntToString(id));
  }

  /** `setDoc(doc(collection, key), d)`: overwrite the document named `key`, or add it. */
  function SetDoc<D>(c: Collection<D>, key: string, d: D): (r: Collection<D>)
    ensures !HasKey(c, key) ==> r == c + [Entry(key, d)]
    ensures HasKey(c, key) ==> |r| == |c|
  {
    if HasKey(c, key) then
      seq(|c|, i requires 0 <= i < |c| => if c[i].key == key then Entry(key, d) else c[i])
    else c + [Entry(key, d)]
  }

  /** Every document is named after its own id, as datasets are. */
  predicate KeyedById<D>(c: Collection<D>, idOf: D -> int) {
    forall i :: 0 <= i < |c| ==> c[i].key == IntToString(idOf(c[i].data))
  }

  /** In a collection named by id, ids are unique. */
  lemma KeyedIdsUnique<D>(c: Collection<D>, idOf: D -> int)
    requires KeysUnique(c) && KeyedById(c, idOf)
    ensures forall i, j :: 0 <= i < j < |c| ==> idOf(c[i].data) != idOf(c[j].data)
  {
  }

  /** Appending under the allocated id keeps names unique and every document named by its id. */
  lemma AppendKeyedPreserves<D>(c: Collection<D>, d: D, idOf: D -> int)
    requires idOf(d) == NextId(c)
    ensures KeysUnique(c) && KeyedById(c, idOf) ==>
              && KeysUnique(c + [Entry(IntToString(idOf(d)), d)])
              && KeyedById(c + [Entry(IntToString(idOf(d)), d)], idOf)
  {
    NextIdKeyFree(c);
  }

  // ---------------------------------------------------------------------------
  // Reading a document back

  /** The id a read reports for a document (`convertFirestoreDoc`): the stored
      `id` field when the document has one, otherwise `parseInt` of the key
      (`None` is NaN). */
  function ReportedId(key: string, idField: Option<int>): (r: Option<int>)
    ensures idField.Some? ==> r == idField
    ensures idField.None? && |key| > 0 && !('0' <= key[0] <= '9') && key[0] != '-' && key[0] != '+' ==> r.None?
  {
    match idField
    case Some(id) => Some(id)
    case None => ParseInt(key)
  }

  /** For a document named by its id both sources of the id agree, so the override
      is invisible; for a generated name only the stored field gives an id. */
  lemma ReportedIdAgreesOnNumericKey(id: int)
    ensures ReportedId(IntToString(id), None) == ReportedId(IntToString(id), Some(id)) == Some(id)
  {
    ParseIntToString(id);
  }

  // ---------------------------------------------------------------------------
  // Users

  function GetUser(c: Collection<User>, id: int): (r: Option<User>)
    ensures r.Some? <==> HasKey(c, IntToString(id))
    ensures r.Some? ==> exists i :: 0 <= i < |c| && c[i].key == IntToString(id) && c[i].data == r.value
    ensures KeysUnique(c) ==> forall i :: 0 <= i < |c| && c[i].key == IntToString(id) ==> r == Some(c[i].data)
  {
    Lookup(c, IntToString(id))
  }

  function GetUserByUsername(c: Collection<User>, username: string): (r: Option<User>)
    ensures r.Some? <==> exists i :: 0 <= i < |c| && c[i].data.username == username
    ensures r.Some? ==> r.value.username == username
    ensures r.Some? ==>
              exists i :: 0 <= i < |c| && c[i].data == r.value && forall j :: 0 <= j < i ==> c[j].data.username != username
  {
    var p := (u: User) => u.username == username;
    var found := Filter(Records(c), p);
    if |found| == 0 then
      assert forall i :: 0 <= i < |c| ==> c[i].data.username != username by {
        forall i | 0 <= i < |c| ensures c[i].data.username != username {
          assert Records(c)[i] == c[i].data;
        }
      }
      None
    else
      FilterFirst(Records(c), p);
      Some(found[0])
  }

  /** `createUser`: a new document under a generated name, holding the next id. */
  function CreateUser(c: Collection<User>, ins: InsertUser, generatedKey: string): (r: (Collection<User>, User))
    requires !HasKey(c, generatedKey)
    ensures r.1 == User(r.1.id, ins.username, ins.password)
    ensures r.1.id == NextId(c)
    ensures forall i :: 0 <= i < |c| ==> KeyNumber(c[i].key) < r.1.id
    ensures r.0 == c + [Entry(generatedKey, r.1)]
    ensures GetUserByUsername(r.0, ins.username).Some?
  {
    var u := User(NextId(c), ins.username, ins.password);
    var c2 := c + [Entry(generatedKey, u)];
    assert c2[|c|].data.username == ins.username;
    (c2, u)
  }

  /** A user created through `addDoc` is not found by `getUser` with its own id
      unless the generated name happens to be that id's numeral. */
  lemma CreatedUserNotFoundById(c: Collection<User>, ins: InsertUser, generatedKey: string)
    requires !HasKey(c, generatedKey)
    requires generatedKey != IntToString(NextId(c))
    ensures var (c2, u) := CreateUser(c, ins, generatedKey);
            GetUser(c2, u.id).None?
  {
    var (c2, u) := CreateUser(c, ins, generatedKey);
    NextIdKeyFree(c);
    forall i | 0 <= i < |c2| ensures c2[i].key != IntToString(u.id) {
      if i < |c| {
        assert c2[i] == c[i];
      }
    }
  }

  /** Startup bootstrap: add the user `demo` (id 1) unless a user of that name exists. */
  function InitializeDatabase(c: Collection<User>, generatedKey: string): (r: Collection<User>)
    requires !HasKey(c, generatedKey)
    ensures GetUserByUsername(r, "demo").Some?
    ensures GetUserByUsername(c, "demo").Some? ==> r == c
    ensures GetUserByUsername(c, "demo").None? ==> r == c + [Entry(generatedKey, User(1, "demo", "password"))]
  {
    if GetUserByUsername(c, "demo").Some? then c
    else
      var r := c + [Entry(generatedKey, User(1, "demo", "password"))];
      assert r[|c|].data.username == "demo";
      r
  }

  // ---------------------------------------------------------------------------
  // Datasets

  predicate DatasetsKeyed(c: Collection<Dataset>) {
    KeysUnique(c) && KeyedById(c, (d: Dataset) => d.id)
  }

  /** `getDatasets`: every stored dataset, in creation order. */
  function GetDatasets(c: Collection<Dataset>): (r: seq<Dataset>)
    ensures |r| == |c| && forall i :: 0 <= i < |c| ==> r[i] == c[i].data
  {
    Records(c)
  }

  /** The query on the `id` field: the first dataset in creation order that holds the id. */
  function FirstWithId(c: Collection<Dataset>, id: int): (r: Option<Dataset>)
    ensures r.None? <==> forall i :: 0 <= i < |c| ==> c[i].data.id != id
    ensures r.Some? ==> r.value.id == id
    ensures r.Some? ==>
              exists i :: 0 <= i < |c| && c[i].data == r.value && forall j :: 0 <= j < i ==> c[j].data.id != id
  {
    var p := (d: Dataset) => d.id == id;
    var found := Filter(Records(c), p);
    if |found| == 0 then
      assert forall i :: 0 <= i < |c| ==> c[i].data.id != id by {
        forall i | 0 <= i < |c| ensures c[i].data.id != id {
          assert Records(c)[i] == c[i].data;
        }
      }
      None
    else
      FilterFirst(Records(c), p);
      Some(found[0])
  }

  /** `getDataset`: the document named `id`, else the first document whose `id` field is `id`. */
  function GetDataset(c: Collection<Dataset>, id: int): (r: Option<Dataset>)
    ensures r.Some? <==> HasKey(c, IntToString(id)) || exists i :: 0 <= i < |c| && c[i].data.id == id
    ensures r.Some? ==> exists i :: 0 <= i < |c| && c[i].data == r.value
    ensures !HasKey(c, IntToString(id)) && r.Some? ==> r.value.id == id
    ensures HasKey(c, IntToString(id)) ==> r == Lookup(c, IntToString(id))
    ensures !HasKey(c, IntToString(id)) && r.Some? ==>
              exists i :: 0 <= i < |c| && c[i].data == r.value && forall j :: 0 <= j < i ==> c[j].data.id != id
  {
    match Lookup(c, IntToString(id))
    case Some(d) => Some(d)
    case None => FirstWithId(c, id)
  }

  /** Appending a document never hides a dataset that could be found. */
  lemma GetDatasetGrows(c: Collection<Dataset>, e: Entry<Dataset>, id: int)
    requires GetDataset(c, id).Some?
    ensures GetDataset(c + [e], id).Some?
  {
    if HasKey(c, IntToString(id)) {
      var j :| 0 <= j < |c| && c[j].key == IntToString(id);
      assert (c + [e])[j] == c[j];
    } else {
      var j :| 0 <= j < |c| && c[j].data.id == id;
      assert (c + [e])[j] == c[j];
    }
  }

  /** With datasets named by their ids, `getDataset(id)` finds exactly the dataset with that id. */
  lemma GetDatasetFindsId(c: Collection<Dataset>, id: int)
    requires DatasetsKeyed(c)
    ensures GetDataset(c, id).Some? <==> exists i :: 0 <= i < |c| && c[i].data.id == id
    ensures forall i :: 0 <= i < |c| && c[i].data.id == id ==> GetDataset(c, id) == Some(c[i].data)
  {
    forall i | 0 <= i < |c| && c[i].key == IntToString(id) ensures c[i].data.id == id {
      IntToStringInjective(c[i].data.id, id);
    }
  }

  /** `createDataset`: a document named by the next id, holding the caller's
      fields with status forced to "verified" whatever status the caller sent. */
  function CreateDataset(c: Collection<Dataset>, ins: InsertDataset): (r: (Collection<Dataset>, Dataset))
    ensures r.1.fields == ins.fields && r.1.status == "verified"
    ensures r.1.id == NextId(c)
    ensures forall i :: 0 <= i < |c| ==> KeyNumber(c[i].key) < r.1.id
    ensures r.0 == c + [Entry(IntToString(r.1.id), r.1)]
    ensures GetDataset(r.0, r.1.id) == Some(r.1)
    ensures DatasetsKeyed(c) ==> DatasetsKeyed(r.0)
  {
    var d := Dataset(NextId(c), ins.fields, "verified");
    NextIdKeyFree(c);
    var c2 := SetDoc(c, IntToString(d.id), d);
    LookupAppendFresh(c, IntToString(d.id), d);
    AppendKeyedPreserves(c, d, (x: Dataset) => x.id);
    (c2, d)
  }

  /** Replace the data of the documents named `key` by `f` of it. */
  function UpdateAt<D>(c: Collection<D>, key: string, f: D -> D): (r: Collection<D>)
    ensures |r| == |c|
    ensures forall i :: 0 <= i < |c| ==> r[i].key == c[i].key
    ensures forall i :: 0 <= i < |c| && c[i].key != key ==> r[i] == c[i]
    ensures forall i :: 0 <= i < |c| && c[i].key == key ==> r[i].data == f(c[i].data)
  {
    seq(|c|, i requires 0 <= i < |c| => if c[i].key == key then Entry(key, f(c[i].data)) else c[i])
  }

  /** `updateDatasetStatus`: not found when no document is named `id`; otherwise
      that document's status, and nothing else, changes and the new record is returned. */
  function UpdateDatasetStatus(c: Collection<Dataset>, id: int, status: string): (r: (Collection<Dataset>, Option<Dataset>))
    ensures r.1.None? <==> !HasKey(c, IntToString(id))
    ensures r.1.None? ==> r.0 == c
    ensures r.1.Some? ==> exists i :: 0 <= i < |c| && c[i].key == IntToString(id) && r.1.value == c[i].data.(status := status)
    ensures |r.0| == |c| && forall i :: 0 <= i < |c| ==> r.0[i].key == c[i].key && r.0[i].data.id == c[i].data.id
    ensures forall i :: 0 <= i < |c| ==> r.0[i].data.fields == c[i].data.fields
    ensures forall i :: 0 <= i < |c| && c[i].key != IntToString(id) ==> r.0[i] == c[i]
    ensures forall i :: 0 <= i < |c| && c[i].key == IntToString(id) ==> r.0[i].data.status == status
  {
    var key := IntToString(id);
    if !HasKey(c, key) then (c, None)
    else
      var c2 := UpdateAt(c, key, (d: Dataset) => d.(status := status));
      var i :| 0 <= i < |c| && c[i].key == key;
      assert c2[i].key == key;
      var reread := Lookup(c2, key);
      (c2, reread)
  }

  // ---------------------------------------------------------------------------
  // Models

  function GetModels(c: Collection<Model>): (r: seq<Model>)
    ensures |r| == |c| && forall i :: 0 <= i < |c| ==> r[i] == c[i].data
  {
    Records(c)
  }

  /** `getModel`: the document named `id`. */
  function GetModel(c: Collection<Model>, id: int): (r: Option<Model>)
    ensures r.Some? <==> HasKey(c, IntToString(id))
    ensures r.Some? ==> exists i :: 0 <= i < |c| && c[i].key == IntToString(id) && c[i].data == r.value
  {
    Lookup(c, IntToString(id))
  }

  /** Appending a document never hides a model that could be found. */
  lemma GetModelGrows(c: Collection<Model>, e: Entry<Model>, id: int)
    requires GetModel(c, id).Some?
    ensures GetModel(c + [e], id).Some?
  {
    var j :| 0 <= j < |c| && c[j].key == IntToString(id);
    assert (c + [e])[j] == c[j];
  }

  /** `createModel` as written: `addDoc` under a generated name, with the id
      computed from the numbers the existing names start with. */
  function CreateModelAsWritten(c: Collection<Model>, ins: InsertModel, generatedKey: string): (r: (Collection<Model>, Model))
    requires !HasKey(c, generatedKey)
    ensures r.1.fields == ins
    ensures r.1.id == NextId(c)
    ensures forall i :: 0 <= i < |c| ==> KeyNumber(c[i].key) < r.1.id
    ensures r.0 == c + [Entry(generatedKey, r.1)]
  {
    var m := Model(NextId(c), ins);
    (c + [Entry(generatedKey, m)], m)
  }

  /** A model created as written cannot be found again by its id unless the
      generated name happens to be that id's numeral. */
  lemma AsWrittenModelNotFound(c: Collection<Model>, ins: InsertModel, generatedKey: string)
    requires !HasKey(c, generatedKey)
    requires generatedKey != IntToString(NextId(c))
    ensures GetModel(CreateModelAsWritten(c, ins, generatedKey).0, CreateModelAsWritten(c, ins, generatedKey).1.id).None?
  {
    var r := CreateModelAsWritten(c, ins, generatedKey);
    NextIdKeyFree(c);
    assert !HasKey(r.0, IntToString(r.1.id)) by {
      forall i | 0 <= i < |r.0| ensures r.0[i].key != IntToString(r.1.id) {
        if i < |c| { assert r.0[i] == c[i]; }
      }
    }
  }

  /** Concretely: two models created in an empty collection under generated
      names that start with a letter both get id 1, and neither is found by it. */
  lemma AsWrittenModelIdsCollide(ins: InsertModel)
    ensures var (c1, m1) := CreateModelAsWritten([], ins, "abc");
            var (c2, m2) := CreateModelAsWritten(c1, ins, "xyz");
            m1.id == 1 && m2.id == 1 && GetModel(c2, 1).None?
  {
    var (c1, m1) := CreateModelAsWritten([], ins, "abc");
    assert KeyNumber("abc") == 0 by {
      assert LeadingDigits("abc", 10) == [];
    }
    assert c1[0].key == "abc";
    var (c2, m2) := CreateModelAsWritten(c1, ins, "xyz");
    assert !HasKey(c2, "1") by {
      assert c2 == [Entry("abc", m1), Entry("xyz", m2)];
    }
  }

  predicate ModelsKeyed(c: Collection<Model>) {
    KeysUnique(c) && KeyedById(c, (m: Model) => m.id)
  }

  /** `createModel` corrected: the document is named by the new id, as datasets are. */
  function CreateModel(c: Collection<Model>, ins: InsertModel): (r: (Collection<Model>, Model))
    ensures r.1.fields == ins
    ensures r.1.id == NextId(c)
    ensures forall i :: 0 <= i < |c| ==> KeyNumber(c[i].key) < r.1.id
    ensures r.0 == c + [Entry(IntToString(r.1.id), r.1)]
    ensures GetModel(r.0, r.1.id) == Some(r.1)
    ensures ModelsKeyed(c) ==> ModelsKeyed(r.0)
    ensures ModelsKeyed(c) ==> forall i :: 0 <= i < |c| ==> c[i].data.id != r.1.id
  {
    var m := Model(NextId(c), ins);
    NextIdKeyFree(c);
    var c2 := SetDoc(c, IntToString(m.id), m);
    LookupAppendFresh(c, IntToString(m.id), m);
    AppendKeyedPreserves(c, m, (x: Model) => x.id);
    assert ModelsKeyed(c) ==> forall i :: 0 <= i < |c| ==> c[i].data.id != m.id by {
      if ModelsKeyed(c) {
        KeyedIdsUnique(c2, (x: Model) => x.id);
        assert forall i :: 0 <= i < |c| ==> c[i] == c2[i];
      }
    }
    (c2, m)
  }

  // ---------------------------------------------------------------------------
  // Relationships

  function GetRelationships(c: Collection<Relationship>): (r: seq<Relationship>)
    ensures |r| == |c| && forall i :: 0 <= i < |c| ==> r[i] == c[i].data
  {
    Records(c)
  }

  /** `getRelationshipsByDataset`: exactly the relationships whose `datasetId` is
      `datasetId`, each as often as it is stored, in creation order. */
  function GetRelationshipsByDataset(c: Collection<Relationship>, datasetId: int): (r: seq<Relationship>)
    ensures forall i :: 0 <= i < |r| ==> r[i].fields.datasetId == datasetId
    ensures forall x :: multiset(r)[x] == if x.fields.datasetId == datasetId then multiset(Records(c))[x] else 0
  {
    var p := (x: Relationship) => x.fields.datasetId == datasetId;
    FilterMultiset(Records(c), p);
    Filter(Records(c), p)
  }

  /** `getRelationshipsByModel`: exactly the relationships whose `modelId` is
      `modelId`, each as often as it is stored, in creation order. */
  function GetRelationshipsByModel(c: Collection<Relationship>, modelId: int): (r: seq<Relationship>)
    ensures forall i :: 0 <= i < |r| ==> r[i].fields.modelId == modelId
    ensures forall x :: multiset(r)[x] == if x.fields.modelId == modelId then multiset(Records(c))[x] else 0
  {
    var p := (x: Relationship) => x.fields.modelId == modelId;
    FilterMultiset(Records(c), p);
    Filter(Records(c), p)
  }

  /** `createRelationship` as written: `addDoc` under a generated name, the
      next id, and status "verified" whatever status the caller sent. */
  function CreateRelationshipAsWritten(c: Collection<Relationship>, ins: InsertRelationship, generatedKey: string)
    : (r: (Collection<Relationship>, Relationship))
    requires !HasKey(c, generatedKey)
    ensures r.1.fields == ins.fields && r.1.status == "verified"
    ensures r.1.id == NextId(c)
    ensures forall i :: 0 <= i < |c| ==> KeyNumber(c[i].key) < r.1.id
    ensures r.0 == c + [Entry(generatedKey, r.1)]
  {
    var rel := Relationship(NextId(c), ins.fields, "verified");
    (c + [Entry(generatedKey, rel)], rel)
  }

  /** `updateRelationshipStatus`: not found when no document is named `id`;
      otherwise that document's status, and nothing else, changes. */
  function UpdateRelationshipStatus(c: Collection<Relationship>, id: int, status: string)
    : (r: (Collection<Relationship>, Option<Relationship>))
    ensures r.1.None? <==> !HasKey(c, IntToString(id))
    ensures r.1.None? ==> r.0 == c
    ensures r.1.Some? ==> exists i :: 0 <= i < |c| && c[i].key == IntToString(id) && r.1.value == c[i].data.(status := status)
    ensures |r.0| == |c| && forall i :: 0 <= i < |c| ==> r.0[i].key == c[i].key && r.0[i].data.id == c[i].data.id
    ensures forall i :: 0 <= i < |c| ==> r.0[i].data.fields == c[i].data.fields
    ensures forall i :: 0 <= i < |c| && c[i].key != IntToString(id) ==> r.0[i] == c[i]
    ensures forall i :: 0 <= i < |c| && c[i].key == IntToString(id) ==> r.0[i].data.status == status
  {
    var key := IntToString(id);
    if !HasKey(c, key) then (c, None)
    else
      var c2 := UpdateAt(c, key, (x: Relationship) => x.(status := status));
      var i :| 0 <= i < |c| && c[i].key == key;
      assert c2[i].key == key;
      (c2, Lookup(c2, key))
  }

  /** A relationship created as written cannot have its status updated by its
      id unless the generated name happens to be that id's numeral. */
  lemma AsWrittenRelationshipNotUpdatable(c: Collection<Relationship>, ins: InsertRelationship, generatedKey: string, status: string)
    requires !HasKey(c, generatedKey)
    requires generatedKey != IntToString(NextId(c))
    ensures var (c2, rel) := CreateRelationshipAsWritten(c, ins, generatedKey);
            UpdateRelationshipStatus(c2, rel.id, status).1.None?
  {
    var (c2, rel) := CreateRelationshipAsWritten(c, ins, generatedKey);
    NextIdKeyFree(c);
    assert !HasKey(c2, IntToString(rel.id)) by {
      forall i | 0 <= i < |c2| ensures c2[i].key != IntToString(rel.id) {
        if i < |c| { assert c2[i] == c[i]; }
      }
    }
  }

  predicate RelationshipsKeyed(c: Collection<Relationship>) {
    KeysUnique(c) && KeyedById(c, (x: Relationship) => x.id)
  }

  /** `createRelationship` corrected: the document is named by the new id, so
      its status can later be updated through that id. */
  function CreateRelationship(c: Collection<Relationship>, ins: InsertRelationship): (r: (Collection<Relationship>, Relationship))
    ensures r.1.fields == ins.fields && r.1.status == "verified"
    ensures r.1.id == NextId(c)
    ensures forall i :: 0 <= i < |c| ==> KeyNumber(c[i].key) < r.1.id
    ensures r.0 == c + [Entry(IntToString(r.1.id), r.1)]
    ensures RelationshipsKeyed(c) ==> RelationshipsKeyed(r.0)
  {
    var rel := Relationship(NextId(c), ins.fields, "verified");
    NextIdKeyFree(c);
    var c2 := SetDoc(c, IntToString(rel.id), rel);
    AppendKeyedPreserves(c, rel, (x: Relationship) => x.id);
    (c2, rel)
  }

  /** With the correction, a status update through the new relationship's id
      finds it and changes its status. */
  lemma CreatedRelationshipUpdatable(c: Collection<Relationship>, ins: InsertRelationship, status: string)
    ensures var (c2, rel) := CreateRelationship(c, ins);
            UpdateRelationshipStatus(c2, rel.id, status).1 == Some(rel.(status := status))
  {
    var (c2, rel) := CreateRelationship(c, ins);
    var key := IntToString(rel.id);
    NextIdKeyFree(c);
    assert |c2| == |c| + 1 && c2[|c|] == Entry(key, rel);
    assert forall j :: 0 <= j < |c| ==> c2[j].key != key by {
      forall j | 0 <= j < |c| ensures c2[j].key != key {
        assert c2[j] == c[j];
      }
    }
    var found := UpdateRelationshipStatus(c2, rel.id, status).1;
    assert HasKey(c2, key);
    var i :| 0 <= i < |c2| && c2[i].key == key && found.value == c2[i].data.(status := status);
    assert i == |c|;
  }
}

=== FILE: text.dfy ===
/** The JavaScript string primitives the core relies on: `toLowerCase` on wallet
    addresses, `includes`, `trim`, `Number.prototype.toString` for integer ids
    and `parseInt` on document keys. */
module Text {
  import opened Common

  // ---------------------------------------------------------------------------
  // toLowerCase

  predicate IsUpper(c: char) {
    'A' <= c <= 'Z'
  }

  /** An upper-case letter becomes the lower-case letter at the same place in
      the alphabet; every other character is kept. */
  function LowerChar(c: char): (r: char)
    ensures IsUpper(c) ==> 'a' <= r <= 'z' && r as int - 'a' as int == c as int - 'A' as int
    ensures !IsUpper(c) ==> r == c
  {
    if IsUpper(c) then (c as int + 32) as char else c
  }

  /** `s.toLowerCase()` restricted to ASCII letters, the alphabet of hex wallet addresses. */
  function Lower(s: string): (r: string)
    ensures |r| == |s|
    ensures forall i :: 0 <= i < |r| ==> !IsUpper(r[i])
    ensures forall i :: 0 <= i < |s| && !IsUpper(s[i]) ==> r[i] == s[i]
    ensures forall i :: 0 <= i < |s| && IsUpper(s[i]) ==> r[i] == LowerChar(s[i])
  {
    if |s| == 0 then [] else [LowerChar(s[0])] + Lower(s[1..])
  }

  /** Lower-casing twice is lower-casing once, so a stored address is its own key. */
  lemma {:induction false} LowerIdempotent(s: string)
    ensures Lower(Lower(s)) == Lower(s)
  {
    var l := Lower(s);
    assert forall i :: 0 <= i < |l| ==> Lower(l)[i] == l[i];
  }

  /** Two strings are equal up to ASCII case exactly when their lower-cased forms agree. */
  predicate SameIgnoringCase(a: string, b: string) {
    Lower(a) == Lower(b)
  }

  // ---------------------------------------------------------------------------
  // includes

  /** `t` occurs in `s` starting at index `i`. */
  ghost predicate OccursAt(s: string, t: string, i: int) {
    0 <= i && i + |t| <= |s| && s[i..i + |t|] == t
  }

  /** `s.includes(t)`: some window of `s` spells `t`; the empty string is in every string. */
  function Contains(s: string, t: string): (b: bool)
    ensures b <==> exists i :: OccursAt(s, t, i)
    decreases |s|
  {
    if |t| > |s| then
      assert forall i :: !OccursAt(s, t, i);
      false
    else if s[..|t|] == t then
      assert OccursAt(s, t, 0);
      true
    else
      var rest := Contains(s[1..], t);
      assert forall i :: OccursAt(s[1..], t, i) ==> OccursAt(s, t, i + 1) by {
        forall i | OccursAt(s[1..], t, i) ensures OccursAt(s, t, i + 1) {
          assert s[1..][i..i + |t|] == s[i + 1..i + 1 + |t|];
        }
      }
      assert forall i :: OccursAt(s, t, i) ==> OccursAt(s[1..], t, i - 1) by {
        forall i | OccursAt(s, t, i) ensures OccursAt(s[1..], t, i - 1) {
          assert i != 0;
          assert s[1..][i - 1..i - 1 + |t|] == s[i..i + |t|];
        }
      }
      rest
  }

  /** Any string contains every one of its suffixes, in particular the nonce at the end of a signed message. */
  lemma ContainsSuffix(prefix: string, t: string)
    ensures Contains(prefix + t, t)
  {
    var s := prefix + t;
    assert s[|prefix|..|prefix| + |t|] == t;
    assert OccursAt(s, t, |prefix|);
  }

  // ---------------------------------------------------------------------------
  // trim

  /** The characters `String.prototype.trim` strips: ECMAScript WhiteSpace
      (tab, vertical tab, form feed, no-break space, byte-order mark and the
      Unicode space separators) and LineTerminator (LF, CR, U+2028, U+2029). */
  predicate IsSpace(c: char) {
    var n := c as int;
    n == 0x09 || n == 0x0A || n == 0x0B || n == 0x0C || n == 0x0D || n == 0x20
    || n == 0xA0 || n == 0x1680 || (0x2000 <= n <= 0x200A) || n == 0x2028
    || n == 0x2029 || n == 0x202F || n == 0x205F || n == 0x3000 || n == 0xFEFF
  }

  function TrimStart(s: string): (r: string)
    ensures |r| <= |s| && r == s[|s| - |r|..]
    ensures forall i :: 0 <= i < |s| - |r| ==> IsSpace(s[i])
    ensures |r| > 0 ==> !IsSpace(r[0])
  {
    if |s| > 0 && IsSpace(s[0]) then TrimStart(s[1..]) else s
  }

  function TrimEnd(s: string): (r: string)
    ensures |r| <= |s| && r == s[..|r|]
    ensures forall i :: |r| <= i < |s| ==> IsSpace(s[i])
    ensures |r| > 0 ==> !IsSpace(r[|r| - 1])
  {
    if |s| > 0 && IsSpace(s[|s| - 1]) then TrimEnd(s[..|s| - 1]) else s
  }

  /** `r` is `s[i..i + |r|]` and everything of `s` outside that window is white space. */
  ghost predicate SpaceAround(s: string, r: string, i: int) {
    && 0 <= i <= |s| - |r| && r == s[i..i + |r|]
    && (forall k :: 0 <= k < i ==> IsSpace(s[k]))
    && (forall k :: i + |r| <= k < |s| ==> IsSpace(s[k]))
  }

  /** `s.trim()`: the middle of `s` left after dropping white space at both ends. */
  function Trim(s: string): (r: string)
    ensures exists i :: SpaceAround(s, r, i)
    ensures |r| > 0 ==> !IsSpace(r[0]) && !IsSpace(r[|r| - 1])
  {
    var a := TrimStart(s);
    var r := TrimEnd(a);
    assert r == s[|s| - |a|..|s| - |a| + |r|];
    assert SpaceAround(s, r, |s| - |a|);
    r
  }

  /** Trimming an already trimmed string changes nothing. */
  lemma TrimIdempotent(s: string)
    ensures Trim(Trim(s)) == Trim(s)
  {
    var t := Trim(s);
    assert TrimStart(t) == t;
    assert TrimEnd(t) == t;
  }

  /** A string that is all white space trims to the empty string. */
  lemma {:induction false} TrimAllSpace(s: string)
    requires forall i :: 0 <= i < |s| ==> IsSpace(s[i])
    ensures Trim(s) == ""
  {
    if |s| > 0 {
      assert TrimStart(s) == TrimStart(s[1..]);
      TrimAllSpace(s[1..]);
    }
  }

  // ---------------------------------------------------------------------------
  // Number.prototype.toString for integers, and parseInt

  function DigitChar(d: nat): (c: char)
    requires d < 10
  {
    ('0' as int + d) as char
  }

  /** Decimal numeral of `n` without leading zeros. */
  function NatToString(n: nat): (s: string)
    ensures |s| >= 1
    ensures forall i :: 0 <= i < |s| ==> '0' <= s[i] <= '9'
    ensures n > 0 ==> s[0] != '0'
    ensures |s| == 1 <==> n < 10
  {
    if n < 10 then [DigitChar(n)] else NatToString(n / 10) + [DigitChar(n % 10)]
  }

  /** `id.toString()` of an integral number. */
  function IntToString(i: int): (s: string)
    ensures |s| >= 1
  {
    if i < 0 then "-" + NatToString(-i) else NatToString(i)
  }

  /** The value of `c` as a digit in base `radix` (2 to 36), if it is one. */
  function DigitValue(c: char, radix: nat): (r: Option<nat>)
    ensures r.Some? ==> r.value < radix
  {
    var v :=
      if '0' <= c <= '9' then c as int - '0' as int
      else if 'a' <= c <= 'z' then c as int - 'a' as int + 10
      else if 'A' <= c <= 'Z' then c as int - 'A' as int + 10
      else 36;
    if v < radix then Some(v) else None
  }

  /** Digit values of the longest prefix of `s` made of digits valid in `radix`. */
  function LeadingDigits(s: string, radix: nat): (ds: seq<nat>)
    ensures |ds| <= |s|
  {
    if |s| == 0 then []
    else match DigitValue(s[0], radix)
      case None => []
      case Some(d) => [d] + LeadingDigits(s[1..], radix)
  }

  /** Positional value of a digit sequence, most significant first. */
  function Positional(ds: seq<nat>, radix: nat): nat {
    if |ds| == 0 then 0 else Positional(ds[..|ds| - 1], radix) * radix + ds[|ds| - 1]
  }

  function ParseUnsigned(s: string, radix: nat): Option<nat> {
    var ds := LeadingDigits(s, radix);
    if |ds| == 0 then None else Some(Positional(ds, radix))
  }

  /** `parseInt(s)` with no radix argument: an optional sign, then a `0x`/`0X`
      prefix selecting base 16 or else base 10, then the longest run of digits;
      `None` is NaN (no digits at all). */
  function ParseInt(s: string): (r: Option<int>)
    ensures |s| > 0 && '1' <= s[0] <= '9' ==> r.Some? && r.value > 0
    ensures |s| == 0 ==> r.None?
    ensures r.Some? && r.value < 0 ==> s[0] == '-'
  {
    var negative := |s| > 0 && s[0] == '-';
    var rest := if |s| > 0 && (s[0] == '-' || s[0] == '+') then s[1..] else s;
    var hex := |rest| >= 2 && rest[0] == '0' && (rest[1] == 'x' || rest[1] == 'X');
    var v := if hex then ParseUnsigned(rest[2..], 16) else ParseUnsigned(rest, 10);
    match v
    case None => None
    case Some(n) =>
      (assert |s| > 0 && '1' <= s[0] <= '9' ==> !hex && LeadingDigits(rest, 10)[0] > 0 && n > 0 by {
         if |s| > 0 && '1' <= s[0] <= '9' {
           PositionalPositive(LeadingDigits(rest, 10), 10);
         }
       }
       Some(if negative then -(n as int) else n as int))
  }

  lemma {:induction false} PositionalPositive(ds: seq<nat>, radix: nat)
    requires |ds| > 0 && ds[0] > 0 && radix > 0
    ensures Positional(ds, radix) > 0
  {
    if |ds| > 1 {
      assert ds[..|ds| - 1][0] == ds[0];
      PositionalPositive(ds[..|ds| - 1], radix);
    }
  }

  lemma {:induction false} LeadingDigitsConcat(a: string, b: string, radix: nat)
    requires forall i :: 0 <= i < |a| ==> DigitValue(a[i], radix).Some?
    ensures LeadingDigits(a + b, radix)
         == LeadingDigits(a, radix) + LeadingDigits(b, radix)
  {
    if |a| == 0 {
      assert a + b == b;
    } else {
      assert (a + b)[1..] == a[1..] + b;
      LeadingDigitsConcat(a[1..], b, radix);
    }
  }

  /** Reading back a decimal numeral recovers the number. */
  lemma {:induction false} ParseNatToString(n: nat)
    ensures ParseUnsigned(NatToString(n), 10) == Some(n)
    ensures |LeadingDigits(NatToString(n), 10)| > 0
    ensures Positional(LeadingDigits(NatToString(n), 10), 10) == n
  {
    if n < 10 {
      assert LeadingDigits([DigitChar(n)], 10) == [n];
      assert Positional([n], 10) == n;
    } else {
      var a := NatToString(n / 10);
      ParseNatToString(n / 10);
      LeadingDigitsConcat(a, [DigitChar(n % 10)], 10);
      assert LeadingDigits([DigitChar(n % 10)], 10) == [n % 10];
      var ds := LeadingDigits(a, 10) + [n % 10];
      assert ds[..|ds| - 1] == LeadingDigits(a, 10);
    }
  }

  /** `parseInt(String(i)) === i` for every integer id: the document key written for
      an id is read back as that id. */
  lemma ParseIntToString(i: int)
    ensures ParseInt(IntToString(i)) == Some(i)
  {
    var m: nat := if i < 0 then -i else i;
    var digits := NatToString(m);
    ParseNatToString(m);
    // A numeral of two or more digits does not start with '0', so it never reads as a `0x` prefix.
    assert !(|digits| >= 2 && digits[0] == '0');
    if i < 0 {
      assert IntToString(i) == "-" + digits;
      assert ("-" + digits)[1..] == digits;
    } else {
      assert IntToString(i) == digits;
      assert digits[0] != '-' && digits[0] != '+';
    }
  }

  /** Different integers print differently, so numeric document keys never collide. */
  lemma IntToStringInjective(i: int, j: int)
    requires IntToString(i) == IntToString(j)
    ensures i == j
  {
    ParseIntToString(i);
    ParseIntToString(j);
  }
}

=== FILE: upload_form.dfy ===
/** The dataset upload form: the list of picked files, the tag list with its
    input box, the submit rule and the resets after success or cancel. */
module UploadForm {
  import opened Common
  import opened Text
  import opened Schema
  import opened Routes
  import Web3Storage
  import Store

  /** A picked file; `handle` is the browser's `File` object, which is what
      identifies it (two files may share a name and size). */
  datatype FormFile = FormFile(handle: nat, name: string, size: nat)

  /** The component's state besides the metadata fields of the form itself. */
  datatype FormState = FormState(files: seq<FormFile>, tags: seq<string>, newTag: string, pending: bool)

  const Initial: FormState := FormState([], [], "", false)

  /** What the tag list always satisfies: no empty tag, no tag with white
      space at either end, no tag twice. */
  predicate TagsWellFormed(tags: seq<string>) {
    && (forall i :: 0 <= i < |tags| ==> tags[i] != "" && Trim(tags[i]) == tags[i])
    && Distinct(tags)
  }

  // ---------------------------------------------------------------------------
  // Tags

  /** `handleAddTag`: the trimmed input is appended when it is not empty and
      not already a tag, and only then is the input cleared. */
  function AddTag(st: FormState): (r: FormState)
    ensures r.files == st.files && r.pending == st.pending
    ensures r.tags == st.tags ==> r.newTag == st.newTag
    ensures r.tags != st.tags ==> r.tags == st.tags + [Trim(st.newTag)] && r.newTag == ""
    ensures r.tags != st.tags <==> Trim(st.newTag) != "" && Trim(st.newTag) !in st.tags
    ensures Trim(st.newTag) != "" ==> Trim(st.newTag) in r.tags
  {
    var t := Trim(st.newTag);
    if t != "" && t !in st.tags then st.(tags := st.tags + [t], newTag := "") else st
  }

  /** Adding a tag keeps the tag list well formed. */
  lemma AddTagKeepsTagsWellFormed(st: FormState)
    requires TagsWellFormed(st.tags)
    ensures TagsWellFormed(AddTag(st).tags)
  {
    var t := Trim(st.newTag);
    if t != "" && t !in st.tags {
      TrimIdempotent(st.newTag);
      var tags := st.tags + [t];
      assert AddTag(st).tags == tags;
      assert forall i :: 0 <= i < |st.tags| ==> tags[i] == st.tags[i];
      assert tags[|st.tags|] == t;
      forall i, j | 0 <= i < j < |tags| ensures tags[i] != tags[j] {
        if j == |st.tags| {
          assert tags[i] in st.tags;
        }
      }
    }
  }

  /** Typing the same text again adds nothing: the tag is already there. */
  lemma AddTagTwiceAddsOnce(st: FormState)
    ensures var st1 := AddTag(st);
            AddTag(st1.(newTag := st.newTag)).tags == st1.tags
  {
  }

  /** `handleRemoveTag`: every copy of the tag goes, the rest keep their order. */
  function RemoveTag(st: FormState, tag: string): (r: FormState)
    ensures r.files == st.files && r.newTag == st.newTag && r.pending == st.pending
    ensures tag !in r.tags
    ensures forall t :: t != tag ==> multiset(r.tags)[t] == multiset(st.tags)[t]
    ensures SubsequenceOf(r.tags, st.tags)
  {
    FilterMultiset(st.tags, (t: string) => t != tag);
    FilterSubsequence(st.tags, (t: string) => t != tag);
    st.(tags := Filter(st.tags, (t: string) => t != tag))
  }

  /** Removing a tag keeps the tag list well formed. */
  lemma RemoveTagKeepsTagsWellFormed(st: FormState, tag: string)
    requires TagsWellFormed(st.tags)
    ensures TagsWellFormed(RemoveTag(st, tag).tags)
  {
    FilterDistinct(st.tags, (t: string) => t != tag);
  }

  /** Removing a tag just added gives back the tags from before. */
  lemma RemoveUndoesAddTag(st: FormState)
    requires Trim(st.newTag) != "" && Trim(st.newTag) !in st.tags
    ensures RemoveTag(AddTag(st), Trim(st.newTag)).tags == st.tags
  {
    var t := Trim(st.newTag);
    FilterConcat(st.tags, [t], (x: string) => x != t);
    FilterAll(st.tags, (x: string) => x != t);
  }

  // ---------------------------------------------------------------------------
  // Files

  /** Dropping or browsing files: the new ones come after the ones already picked, in order. */
  function AddFiles(st: FormState, picked: seq<FormFile>): (r: FormState)
    ensures r.tags == st.tags && r.newTag == st.newTag && r.pending == st.pending
    ensures |r.files| == |st.files| + |picked|
    ensures r.files[..|st.files|] == st.files && r.files[|st.files|..] == picked
  {
    st.(files := st.files + picked)
  }

  /** `handleRemoveFile`: that file object goes and every other file stays, in order. */
  function RemoveFile(st: FormState, file: FormFile): (r: FormState)
    ensures r.tags == st.tags && r.newTag == st.newTag && r.pending == st.pending
    ensures forall i :: 0 <= i < |r.files| ==> r.files[i].handle != file.handle
    ensures forall f: FormFile :: f.handle != file.handle ==> multiset(r.files)[f] == multiset(st.files)[f]
    ensures SubsequenceOf(r.files, st.files)
  {
    FilterMultiset(st.files, (f: FormFile) => f.handle != file.handle);
    FilterSubsequence(st.files, (f: FormFile) => f.handle != file.handle);
    st.(files := Filter(st.files, (f: FormFile) => f.handle != file.handle))
  }

  /** Removing a file just picked gives back the file list from before. */
  lemma RemoveUndoesAddFile(st: FormState, file: FormFile)
    requires forall i :: 0 <= i < |st.files| ==> st.files[i].handle != file.handle
    ensures RemoveFile(AddFiles(st, [file]), file) == st
  {
    FilterConcat(st.files, [file], (f: FormFile) => f.handle != file.handle);
    FilterAll(st.files, (f: FormFile) => f.handle != file.handle);
  }

  // ---------------------------------------------------------------------------
  // Submitting

  /** The submit button is enabled only with files and no upload in flight. */
  predicate SubmitEnabled(st: FormState) {
    !st.pending && |st.files| > 0
  }

  /** The form's metadata values pass the metadata schema, which the form's
      zod resolver checks before `onSubmit` runs. */
  predicate MetadataAccepted(data: DatasetMetadata) {
    ValidateMetadata(MetadataBody(data)).Ok?
  }

  /** Clicking the submit button with the form's metadata values `data`: an
      enabled button starts the upload only when every required metadata field
      is filled in, and the upload in flight then disables the button;
      otherwise the click changes nothing (the form shows its field errors). */
  function ClickSubmit(st: FormState, data: DatasetMetadata): (r: FormState)
    ensures r.files == st.files && r.tags == st.tags && r.newTag == st.newTag
    ensures r != st <==>
              && SubmitEnabled(st)
              && data.name != "" && data.domain != "" && data.format != ""
              && data.license != "" && data.accessControl != ""
    ensures r != st ==> r.pending && !SubmitEnabled(r)
    ensures st.pending ==> r == st
  {
    MetadataRoundTrip(data);
    if SubmitEnabled(st) && MetadataAccepted(data) then st.(pending := true) else st
  }

  /** The metadata form's default values. */
  const DefaultMetadata := DatasetMetadata("", "", "", "", "public", Some(""), Some([]))

  /** Picking a file and submitting the untouched form starts nothing: the
      empty name is refused, and the button stays enabled. */
  lemma UntouchedFormDoesNotSubmit(f: FormFile)
    ensures var st := AddFiles(Initial, [f]);
            ClickSubmit(st, DefaultMetadata) == st && SubmitEnabled(ClickSubmit(st, DefaultMetadata))
  {
  }

  const NoFiles := "Please select files to upload"

  function ClientFiles(files: seq<FormFile>): (r: seq<Web3Storage.ClientFile>)
    ensures |r| == |files|
    ensures forall i :: 0 <= i < |files| ==> r[i] == Web3Storage.ClientFile(files[i].name, files[i].size)
  {
    if |files| == 0 then [] else [Web3Storage.ClientFile(files[0].name, files[0].size)] + ClientFiles(files[1..])
  }

  /** The body of the `POST /api/datasets` the form sends after the upload. */
  function DatasetBody(data: DatasetMetadata, tags: seq<string>, fileCount: nat, reply: UploadReply): Body {
    map[
      "name" := Str(data.name), "cid" := Str(reply.cid), "size" := Str(reply.size),
      "domain" := Str(data.domain), "format" := Str(data.format), "license" := Str(data.license),
      "accessControl" := Str(data.accessControl),
      "description" := (if data.description.Some? then Str(data.description.value) else Absent),
      "tags" := Arr(StrItems(tags)), "filesTotalCount" := Num(fileCount),
      "status" := Str("processing"), "userId" := Num(1)]
  }

  /** The mutation: no files is an error before anything is sent; otherwise
      the files go up with the form's tags in the metadata, and the upload's CID
      and size go into the dataset body, which asks for status "processing". */
  function Submit(st: FormState, data: DatasetMetadata, metadataJsonSize: nat,
                  server: Web3Storage.UploadRequest -> Option<Response<UploadReply>>): (r: Result<Body, string>)
    ensures |st.files| == 0 ==> r == Err(NoFiles)
    ensures |st.files| > 0 ==>
              var (request, reply) := Web3Storage.UploadDataset(ClientFiles(st.files), data.(tags := Some(st.tags)), metadataJsonSize, server);
              && request.metadata.tags == Some(st.tags)
              && (r.Ok? <==> reply.Ok?)
              && (r.Err? ==> r.error == Web3Storage.UploadError)
              && (r.Ok? ==> Field(r.value, "cid") == Str(reply.value.cid) && Field(r.value, "size") == Str(reply.value.size))
    ensures r.Ok? ==> Field(r.value, "filesTotalCount") == Num(|st.files|) && Field(r.value, "status") == Str("processing")
    ensures r.Ok? ==>
              && Field(r.value, "name") == Str(data.name) && Field(r.value, "domain") == Str(data.domain)
              && Field(r.value, "format") == Str(data.format) && Field(r.value, "license") == Str(data.license)
              && Field(r.value, "accessControl") == Str(data.accessControl)
              && Field(r.value, "tags") == Arr(StrItems(st.tags)) && Field(r.value, "userId") == Num(1)
    ensures r.Ok? && data.description.Some? ==> Field(r.value, "description") == Str(data.description.value)
    ensures r.Ok? && data.description.None? ==> Field(r.value, "description") == Absent
  {
    if |st.files| == 0 then Err(NoFiles)
    else
      var metadata := data.(tags := Some(st.tags));
      match Web3Storage.UploadDataset(ClientFiles(st.files), metadata, metadataJsonSize, server).1
      case Err(e) => Err(e)
      case Ok(reply) =>
        DatasetBodyRequiredFields(data, st.tags, |st.files|, reply);
        DatasetBodyOptionalFields(data, st.tags, |st.files|, reply);
        Ok(DatasetBody(data, st.tags, |st.files|, reply))
  }

  /** What each required text key of the form's dataset body holds. */
  lemma DatasetBodyRequiredFields(data: DatasetMetadata, tags: seq<string>, fileCount: nat, reply: UploadReply)
    ensures var body := DatasetBody(data, tags, fileCount, reply);
            && Field(body, "name") == Str(data.name) && Field(body, "cid") == Str(reply.cid)
            && Field(body, "size") == Str(reply.size) && Field(body, "domain") == Str(data.domain)
            && Field(body, "format") == Str(data.format) && Field(body, "license") == Str(data.license)
  {
  }

  /** What each optional key of the form's dataset body holds. */
  lemma DatasetBodyOptionalFields(data: DatasetMetadata, tags: seq<string>, fileCount: nat, reply: UploadReply)
    ensures var body := DatasetBody(data, tags, fileCount, reply);
            && Field(body, "accessControl") == Str(data.accessControl)
            && (data.description.Some? ==> Field(body, "description") == Str(data.description.value))
            && (data.description.None? ==> Field(body, "description") == Absent)
            && Field(body, "tags") == Arr(StrItems(tags))
            && Field(body, "filesTotalCount") == Num(fileCount)
            && Field(body, "status") == Str("processing") && Field(body, "userId") == Num(1)
  {
  }

  /** The dataset schema accepts the form's body and keeps its tags and file count. */
  lemma DatasetBodyAccepted(data: DatasetMetadata, tags: seq<string>, fileCount: nat, reply: UploadReply)
    ensures var body := DatasetBody(data, tags, fileCount, reply);
            && DatasetBodyValid(body)
            && ValidateInsertDataset(body).Ok?
            && ValidateInsertDataset(body).value.fields.tags == Some(tags)
            && ValidateInsertDataset(body).value.fields.filesTotalCount == Some(fileCount)
  {
    DatasetBodyRequiredFields(data, tags, fileCount, reply);
    DatasetBodyOptionalFields(data, tags, fileCount, reply);
    StringsStrItems(tags);
  }

  /** The body the form sends is one the dataset schema accepts, and the record
      created from it carries the form's tags and file count, but status
      "verified", not the "processing" the form asked for. */
  lemma SubmittedDatasetIsVerified(db: Store.Db, st: FormState, data: DatasetMetadata, metadataJsonSize: nat,
                                   server: Web3Storage.UploadRequest -> Option<Response<UploadReply>>)
    requires Submit(st, data, metadataJsonSize, server).Ok?
    ensures var body := Submit(st, data, metadataJsonSize, server).value;
            var (_, response) := PostDataset(db, body);
            && DatasetBodyValid(body)
            && response.Success? && response.value.status == "verified"
            && response.value.fields.tags == Some(st.tags)
            && response.value.fields.filesTotalCount == Some(|st.files|)
  {
    var reply := Web3Storage.UploadDataset(ClientFiles(st.files), data.(tags := Some(st.tags)), metadataJsonSize, server).1.value;
    assert Submit(st, data, metadataJsonSize, server).value == DatasetBody(data, st.tags, |st.files|, reply);
    DatasetBodyAccepted(data, st.tags, |st.files|, reply);
  }

  /** The mutation has settled successfully: files, tags and the tag input are cleared. */
  function OnSuccess(st: FormState): (r: FormState)
    ensures r.files == [] && r.tags == [] && r.newTag == "" && !r.pending
    ensures !SubmitEnabled(r)
  {
    Initial
  }

  /** The mutation has failed: the picked files and tags stay for another try. */
  function OnError(st: FormState): (r: FormState)
    ensures r.files == st.files && r.tags == st.tags && r.newTag == st.newTag && !r.pending
    ensures |st.files| > 0 ==> SubmitEnabled(r)
  {
    st.(pending := false)
  }

  /** Cancel: files and tags are cleared; the tag input is left as typed. */
  function Cancel(st: FormState): (r: FormState)
    ensures r.files == [] && r.tags == []
    ensures r.newTag == st.newTag && r.pending == st.pending
    ensures !SubmitEnabled(r)
  {
    st.(files := [], tags := [])
  }

  /** The user's actions on the form and the mutation's outcomes. */
  datatype Action =
    | TypeTag(text: string)
    | ClickAddTag
    | ClickRemoveTag(tag: string)
    | Pick(files: seq<FormFile>)
    | ClickRemoveFile(file: FormFile)
    | Succeeded
    | Failed
    | ClickCancel
    | Submitted(data: DatasetMetadata)

  function Step(st: FormState, a: Action): FormState {
    match a
    case TypeTag(text) => st.(newTag := text)
    case ClickAddTag => AddTag(st)
    case ClickRemoveTag(tag) => RemoveTag(st, tag)
    case Pick(files) => AddFiles(st, files)
    case ClickRemoveFile(file) => RemoveFile(st, file)
    case Succeeded => OnSuccess(st)
    case Failed => OnError(st)
    case ClickCancel => Cancel(st)
    case Submitted(data) => ClickSubmit(st, data)
  }

  /** The state after a sequence of actions. */
  function Run(st: FormState, actions: seq<Action>): FormState
    decreases |actions|
  {
    if |actions| == 0 then st else Run(Step(st, actions[0]), actions[1..])
  }

  /** No single action breaks the tag list. */
  lemma StepKeepsTagsWellFormed(st: FormState, a: Action)
    requires TagsWellFormed(st.tags)
    ensures TagsWellFormed(Step(st, a).tags)
  {
    match a {
      case ClickAddTag => AddTagKeepsTagsWellFormed(st);
      case ClickRemoveTag(tag) => RemoveTagKeepsTagsWellFormed(st, tag);
      case _ =>
    }
  }

  /** Whatever the user does, the tag list stays well formed. */
  lemma {:induction false} RunKeepsTagsWellFormed(st: FormState, actions: seq<Action>)
    requires TagsWellFormed(st.tags)
    ensures TagsWellFormed(Run(st, actions).tags)
    decreases |actions|
  {
    if |actions| > 0 {
      StepKeepsTagsWellFormed(st, actions[0]);
      RunKeepsTagsWellFormed(Step(st, actions[0]), actions[1..]);
    }
  }

  /** Whether an action is the upload settling, one way or the other. */
  predicate Settles(a: Action) {
    a.Succeeded? || a.Failed?
  }

  /** Once an upload is in flight the submit button stays disabled, whatever
      else the user does (cancel included), until the upload settles. */
  lemma {:induction false} PendingUntilSettled(st: FormState, actions: seq<Action>)
    requires st.pending
    requires forall i :: 0 <= i < |actions| ==> !Settles(actions[i])
    ensures Run(st, actions).pending && !SubmitEnabled(Run(st, actions))
    decreases |actions|
  {
    if |actions| > 0 {
      assert !Settles(actions[0]);
      PendingUntilSettled(Step(st, actions[0]), actions[1..]);
    }
  }
}

=== FILE: web3storage.dfy ===
/** The client's storage helpers: the CID existence check, the lineage verifier
    built on it, the CID filter over the account's uploads, and the file list
    the dataset upload sends. The server is an oracle answering each request. */
module Web3Storage {
  import opened Common
  import opened Store
  import opened Routes
  import Schema

  /** What `GET /api/ipfs/check/:cid` gives the client: the request threw, or a
      response with its `ok` flag and the body's `exists` field. */
  datatype CheckReply = Threw | Replied(ok: bool, found: bool)

  /** The reply the client sees for one of the server's answers. */
  function ReplyOf(r: Response<bool>): (c: CheckReply)
    ensures c.Replied? && (c.ok <==> r.Success?)
    ensures c.ok ==> c.found == r.value
  {
    match r
    case Success(_, v) => Replied(true, v)
    case Failure(_, _) => Replied(false, false)
  }

  /** `checkCidExists`: false when the request throws or the response is not
      ok, else the server's flag. */
  function CheckCidExists(cid: string, server: string -> CheckReply): (b: bool)
    ensures b <==> server(cid).Replied? && server(cid).ok && server(cid).found
  {
    match server(cid)
    case Threw => false
    case Replied(ok, found) => if !ok then false else found
  }

  /** `processingCid` as it arrives: undefined, or a string that may be empty. */
  predicate IsTruthy(cid: Option<string>) {
    cid.Some? && cid.value != ""
  }

  /** `verifyLineage`, with the CIDs it asks the server about in order: both
      the dataset and the model are checked before either answer is looked at,
      and a truthy processing CID is checked only when both exist. A thrown
      check already counts as false, so the verifier's own catch is never reached. */
  function VerifyLineage(datasetCid: string, processingCid: Option<string>, modelCid: string,
                         server: string -> CheckReply): (r: (bool, seq<string>))
    ensures r.0 <==>
              (&& CheckCidExists(datasetCid, server)
               && CheckCidExists(modelCid, server)
               && (IsTruthy(processingCid) ==> CheckCidExists(processingCid.value, server)))
    ensures 2 <= |r.1| <= 3 && r.1[..2] == [datasetCid, modelCid]
    ensures |r.1| == 3 <==> IsTruthy(processingCid) && CheckCidExists(datasetCid, server) && CheckCidExists(modelCid, server)
    ensures |r.1| == 3 ==> r.1[2] == processingCid.value
  {
    var datasetExists := CheckCidExists(datasetCid, server);
    var modelExists := CheckCidExists(modelCid, server);
    if !datasetExists || !modelExists then (false, [datasetCid, modelCid])
    else if IsTruthy(processingCid) then
      (CheckCidExists(processingCid.value, server), [datasetCid, modelCid, processingCid.value])
    else (true, [datasetCid, modelCid])
  }

  /** An empty processing CID is the same as none: it is never queried and does
      not change the verdict. */
  lemma EmptyProcessingIsAbsent(datasetCid: string, modelCid: string, server: string -> CheckReply)
    ensures VerifyLineage(datasetCid, Some(""), modelCid, server) == VerifyLineage(datasetCid, None, modelCid, server)
    ensures forall i :: 0 <= i < |VerifyLineage(datasetCid, None, modelCid, server).1| ==>
              VerifyLineage(datasetCid, None, modelCid, server).1[i] in {datasetCid, modelCid}
  {
  }

  /** The server a client talks to: every check is answered by the CID handler
      over the given store and content network. */
  function ServerOver(lh: Lighthouse, db: Db): (server: string -> CheckReply)
    ensures forall cid :: server(cid) == ReplyOf(IpfsCheck(lh, db, cid))
  {
    cid => ReplyOf(IpfsCheck(lh, db, cid))
  }

  /** Without an API key the server refuses every check, so no lineage verifies. */
  lemma NoApiKeyNoLineage(lh: Lighthouse, db: Db, datasetCid: string, processingCid: Option<string>, modelCid: string)
    requires !lh.apiKeySet
    ensures !VerifyLineage(datasetCid, processingCid, modelCid, ServerOver(lh, db)).0
  {
    assert IpfsCheck(lh, db, datasetCid).Failure?;
  }

  /** A CID is one some stored dataset carries. */
  predicate StoredCid(db: Db, cid: string) {
    exists i :: 0 <= i < |db.datasets| && db.datasets[i].data.fields.cid == cid
  }

  /** On the server's store-backed path, a lineage verifies exactly when each
      CID it names, the processing one only when truthy, belongs to a stored dataset. */
  lemma StoreBackedLineage(lh: Lighthouse, db: Db, datasetCid: string, processingCid: Option<string>, modelCid: string)
    requires lh.apiKeySet && !lh.hasGetUploads
    ensures VerifyLineage(datasetCid, processingCid, modelCid, ServerOver(lh, db)).0 <==>
              (&& StoredCid(db, datasetCid) && StoredCid(db, modelCid)
               && (IsTruthy(processingCid) ==> StoredCid(db, processingCid.value)))
  {
    var server := ServerOver(lh, db);
    assert CheckCidExists(datasetCid, server) == StoredCid(db, datasetCid);
    assert CheckCidExists(modelCid, server) == StoredCid(db, modelCid);
    if IsTruthy(processingCid) {
      assert CheckCidExists(processingCid.value, server) == StoredCid(db, processingCid.value);
    }
  }

  // ---------------------------------------------------------------------------
  // Retrieval

  /** One entry of the account's upload list. */
  datatype LighthouseFile = LighthouseFile(cid: string, fileName: string, fileSizeInBytes: nat)

  const RetrieveError := "Failed to retrieve dataset from Filecoin/IPFS"

  /** `retrieveDataset`: `uploads` is the server's upload list, `None` when the
      request fails. The files with exactly this CID, in list order; none at
      all is an error. */
  function RetrieveDataset(cid: string, uploads: Option<seq<LighthouseFile>>): (r: Result<seq<LighthouseFile>, string>)
    ensures uploads.None? ==> r == Err(RetrieveError)
    ensures r.Err? ==> r.error == RetrieveError
    ensures r.Ok? <==> uploads.Some? && exists i :: 0 <= i < |uploads.value| && uploads.value[i].cid == cid
    ensures r.Ok? ==>
              && |r.value| > 0
              && (forall i :: 0 <= i < |r.value| ==> r.value[i].cid == cid)
              && forall f :: multiset(r.value)[f] == if f.cid == cid then multiset(uploads.value)[f] else 0
  {
    match uploads
    case None => Err(RetrieveError)
    case Some(list) =>
      var matching := Filter(list, (f: LighthouseFile) => f.cid == cid);
      FilterMultiset(list, (f: LighthouseFile) => f.cid == cid);
      if |matching| == 0 then Err(RetrieveError) else Ok(matching)
  }

  /** Retrieval keeps the list's order: the files matching in the first part of
      the list come before those matching in the rest. */
  lemma RetrieveKeepsOrder(cid: string, a: seq<LighthouseFile>, b: seq<LighthouseFile>)
    requires RetrieveDataset(cid, Some(a)).Ok? && RetrieveDataset(cid, Some(b)).Ok?
    ensures RetrieveDataset(cid, Some(a + b)) == Ok(RetrieveDataset(cid, Some(a)).value + RetrieveDataset(cid, Some(b)).value)
  {
    FilterConcat(a, b, (f: LighthouseFile) => f.cid == cid);
  }

  // ---------------------------------------------------------------------------
  // Upload

  /** A file the user picked: its name and byte size. */
  datatype ClientFile = ClientFile(name: string, size: nat)

  /** The multipart request `uploadDataset` sends: the `files` parts in order,
      the metadata serialised again as a form field, and the dataset name. */
  datatype UploadRequest = UploadRequest(files: seq<ClientFile>, metadata: Schema.DatasetMetadata, name: string)

  const UploadError := "Failed to upload dataset to Filecoin/IPFS"

  /** `uploadDataset`: the caller's files in order, then one `metadata.json`
      of the given serialised size; any failure, whatever its cause, becomes one
      message. `server` answers the request, `None` when it throws. */
  function UploadDataset(files: seq<ClientFile>, metadata: Schema.DatasetMetadata, metadataJsonSize: nat,
                         server: UploadRequest -> Option<Response<UploadReply>>): (r: (UploadRequest, Result<UploadReply, string>))
    ensures |r.0.files| == |files| + 1 && r.0.files[..|files|] == files
    ensures r.0.files[|files|] == ClientFile("metadata.json", metadataJsonSize)
    ensures r.0.metadata == metadata && r.0.name == metadata.name
    ensures r.1.Ok? <==> server(r.0).Some? && server(r.0).value.Success?
    ensures r.1.Ok? ==> r.1.value == server(r.0).value.value
    ensures r.1.Err? ==> r.1.error == UploadError
  {
    var request := UploadRequest(files + [ClientFile("metadata.json", metadataJsonSize)], metadata, metadata.name);
    match server(request)
    case Some(Success(_, reply)) => (request, Ok(reply))
    case _ => (request, Err(UploadError))
  }

  /** How the server receives a client file: a stored temporary file. */
  function Received(files: seq<ClientFile>): (r: seq<UploadFile>)
    ensures |r| == |files|
    ensures forall i :: 0 <= i < |files| ==> r[i] == UploadFile(files[i].name, files[i].size, true)
  {
    if |files| == 0 then [] else [UploadFile(files[0].name, files[0].size, true)] + Received(files[1..])
  }

  /** The client already adds `metadata.json` and also sends the metadata field,
      on which the server adds its own: the server uploads two `metadata.json`
      files and counts both in the dataset's file total. */
  lemma MetadataUploadedTwice(files: seq<ClientFile>, metadata: Schema.DatasetMetadata, metadataJsonSize: nat,
                              server: UploadRequest -> Option<Response<UploadReply>>,
                              md: Schema.Body, serverMetadataSize: nat)
    ensures var sent := UploadDataset(files, metadata, metadataJsonSize, server).0;
            var all := AllFiles(Received(sent.files), Parsed(md), serverMetadataSize);
            && |all| == |files| + 2
            && all[|files|].name == "metadata.json" && all[|files| + 1].name == "metadata.json"
  {
  }
}
